=== FILE: README.md ===
# Ticket imposition engine, modelled in Dafny

`ticket.py` lays numbered tickets out on printed pages. A `PageLayout`
takes four inputs:

- a ticket size;
- a page size;
- a crop-mark length;
- the requested minimum margins.

From these it works out a grid: how many columns and rows of tickets fit on
a page, how many tickets a page holds, how many pages the run needs, and the
"real" margins that make the grid span the page exactly. It then:

- deals the ticket numbers over the pages in one of three orders: sequential
  blocks, stack (round robin) or random;
- optionally reverses the page order;
- walks each page cell by cell, stamping every ticket with its number, a
  label taken from the end of a label list, and the origin of its cell;
- draws crop marks on each page and ends each page with a page break.

The model is a set of pure functions over immutable records, with one module
per part of the engine:

- `Layout` covers grid sizing: `set_margins`, `set_pagesize` and the
  constructor.
- `Numbering` covers `generate_numbers`. The loops are simulated step by step
  (`Fill`, `Deal`), and closed-form reference descriptions (`Chunks`,
  `Dealt`) are proved equal to them.
- `Labels` covers `get_label`.
- `Cells` covers `get_cell` and `paint_cropmarks`, which returns the list of
  segments drawn.
- `NumberFormat` covers `format_number`.
- `Driver` covers `generate`. It returns the list of events drawn: `Line`,
  `Stamp(number, text, x, y)` and `ShowPage`.
- `Arith` holds Python's `int(a / b)` (truncation toward zero) and
  `math.ceil(a / b)`.
- `Seqs` holds sequence helpers.
- `Failures` holds the `Result` type that stands for Python's exceptions.

Dimensions are integers, and Python exceptions become `Err(...)` values:

- `ZeroDivisionError`: a zero ticket dimension, or no room for a ticket.
- `TypeError`: `range(0, None)` when no grid was ever computed, or
  indexing a page size that was cleared afterwards.
- `IndexError`: a page list too short for the numbers.
- `AttributeError`: a layout whose margins were never recorded.
- `ValueError`: a negative format width.

Error cases follow the code as written. The code has no dedicated error for
an unplaceable ticket, none for an unknown order, and no label-underflow
counter. An unknown order leaves every page empty, and an exhausted label
list yields empty strings.

## Model

| member | source | states |
|---|---|---|
| Arith.TruncDivBounds | ticket.py:397-398 | `int(a / b)` rounds toward zero: for a positive divisor a non-negative dividend is rounded down, a negative one up, and the quotient is negative exactly when the dividend is at most minus the divisor |
| Arith.CeilDivBounds | ticket.py:401 | `ceil(a / b)` is the least number of blocks of size b that cover a (and the analogue for a negative b) |
| Layout.ComputeGrid | ticket.py:395-407 | the grid arithmetic raises ZeroDivisionError exactly when a ticket dimension is zero or a truncated count is zero. Otherwise: each count is the truncated quotient `int(usable / size)`, which with room on the page is the most tickets that fit and with margins wider than the page is negative, rounded toward zero; tickets per page is their product; the page count is `ceil(numtickets / tickets per page)`, which for a positive tickets-per-page count holds all tickets with less than one page to spare (0 for no tickets); the left and top real margins are the requested ones plus the crop mark; and margins plus grid span the page exactly, with the leftover going right and down |
| Layout.SetMargins | ticket.py:385-407 | without a page size nothing changes. Otherwise the requested margins are recorded and the grid recomputed, it fails exactly when the grid computation fails, the layout it returns carries exactly the grid its own fields give, and no other field changes |
| Layout.SetPageSize | ticket.py:410-415 | the real margins are recalculated for the new page size: with margins recorded it fails exactly when the grid computation for the new size fails, and on success the layout keeps its recorded margins and every other field, holds the new page size and carries exactly the grid those give (for any layout, including one whose margins `set_margins` changed). With no margins ever recorded it raises AttributeError. A cleared page size succeeds without recomputation. On an error only the exception is modelled, not the page size the source has already stored |
| Layout.NewLayout | ticket.py:364-383 | the constructor keeps the fields it is given. Without a page size it records no margins and no grid. With one it fails exactly when the grid computation fails, and otherwise records the margins and the grid they give |
| Layout.NewLayoutConsistent | ticket.py:364-415 | a layout built with a page size carries exactly the grid its own inputs give, and setting the same page size again changes nothing |
| Layout.SetPageSizeRebuilds | ticket.py:410-415 | changing the page size yields the layout that would have been built with that page size from the start |
| Layout.NoPageSizeThenSetPageSize | ticket.py:376-415 | a layout built without a page size has no grid, and giving it a page size later raises instead of computing one |
| Numbering.Range | ticket.py:476 | `range(start, start + count)`: count elements (none for a negative count), element i being start + i |
| Numbering.NumberPages | ticket.py:471-499 | the page list has exactly numpages pages (none for a non-positive count), and an unrecognised order leaves every page empty without error |
| Numbering.FillStep | ticket.py:477-490 | one pass of the sequential/random loop body raises IndexError exactly when the current page is past the list, or is full and is the last one. Otherwise it appends the number to exactly one page, the current one while it has room, otherwise the next, leaving every other page unchanged |
| Numbering.Fill | ticket.py:475-490 | the sequential/random loop keeps the number of pages and raises only IndexError; FillConserves and FillIsChunks state what it puts on them |
| Numbering.DealStep | ticket.py:493-497 | one pass of the stack loop body appends the number to the current page and nothing else, then moves to the next page while the current one is before page numpages - 1, and otherwise wraps to the first; it raises IndexError exactly when the current page is past the list |
| Numbering.Deal | ticket.py:491-497 | the stack loop keeps the number of pages and raises only IndexError; DealConserves and DealIsDealt state what it puts on them |
| Numbering.ChunksFlatten | ticket.py:475-490 | read in order, the sequential blocks give back the numbers |
| Numbering.ChunksCount | ticket.py:475-490 | the numbers fill ceil(n / tpp) blocks |
| Numbering.FillIsChunks | ticket.py:475-490 | the fill loop over an empty page list with room for every block yields the consecutive blocks of the input, then the pages still empty |
| Numbering.DealIsDealt | ticket.py:491-497 | the stack loop over m pages yields the round-robin strides, page p holding elements p, p + m, p + 2m, ... |
| Numbering.StrideIndex | ticket.py:491-497 | position j of stride p exists exactly when p + j*m is an index of the input, and holds that element |
| Numbering.DealtCapacity | ticket.py:491-497 | every round-robin page holds at most ceil(n / m) numbers |
| Numbering.FillConserves | ticket.py:475-490 | the fill loop, when it does not raise, adds exactly the numbers fed to it (as a multiset) |
| Numbering.DealConserves | ticket.py:491-497 | the stack loop, when it does not raise, adds exactly the numbers fed to it (as a multiset) |
| Numbering.SequentialPages | ticket.py:475-481 | sequential order on the page count `set_margins` computes yields the tpp-sized consecutive blocks of the range |
| Numbering.SequentialPlace | ticket.py:475-481 | in sequential order number offset + k lands on page k div tpp at position k mod tpp |
| Numbering.RandomPages | ticket.py:482-490 | random order pops the shuffled list from its end into tpp-sized blocks, so the pages read in order give the shuffled list reversed |
| Numbering.StackPages | ticket.py:491-497 | stack order yields the round-robin strides of the range over numpages pages, none holding more than tpp numbers |
| Numbering.StackPlace | ticket.py:491-497 | in stack order number offset + k lands on page k mod numpages at position k div numpages |
| Numbering.StackPagesEmpty | ticket.py:491-497 | with no tickets, stack order produces no pages |
| Numbering.CeilDivWithinPage | ticket.py:401 | spreading n tickets round robin over ceil(n / tpp) pages puts at most tpp on a page |
| Numbering.NumbersArePermutation | ticket.py:471-499 | under every recognised order, inverted or not, the pages receive each number of the range exactly once, and no page holds more than tpp numbers |
| Numbering.InvertReversesPages | ticket.py:498-499 | `invert` reverses the page order and leaves each page's contents unchanged; it raises exactly when the plain numbering raises |
| Numbering.NegativePerPageRaises | ticket.py:475-497 | with a negative tickets-per-page count and tickets to number, the page count is not positive and both the sequential and the stack loop raise IndexError |
| Labels.GetLabel | ticket.py:501-505 | an empty list yields "" and stays empty; otherwise the label returned, appended back, restores the list |
| Labels.GetLabelAfterPush | ticket.py:501-505 | the feed is last in, first out: pushing a label and requesting one gives it back and restores the list |
| Labels.GetLabelPopped | ticket.py:501-505 | request g + 1, made on what g requests left, receives labels[L - 1 - g] (or "" past the end) and leaves what g + 1 requests leave |
| Labels.LabelRunSplit | ticket.py:501-505 | the labels handed out by a + b requests are those of the first a followed by those of the next b |
| Labels.RunReversesList | ticket.py:501-505 | request g overall receives labels[L - 1 - g] for g < L and "" after that |
| Cells.GetCell | ticket.py:463-469 | `get_cell` fails with AttributeError when no grid was computed and with TypeError when the page size was cleared; otherwise it returns the corner of cell (col, row), placed as OriginSteps describes |
| Cells.OriginSteps | ticket.py:467-468 | the first cell's corner lies at the left real margin, one ticket height below the top real margin; one column right moves the corner one ticket width right, and one row down moves it one ticket height down, with the other coordinate kept |
| Cells.GridCorners | ticket.py:463-469 | the first column starts at the left real margin, the last column ends at the right one, the first row ends at the top one and the last row starts at the bottom one |
| Cells.CellsTile | ticket.py:463-469 | every point of the grid area lies in exactly one cell of the grid: the cells tile the area without gaps or overlaps |
| Cells.ColumnsMarks | ticket.py:439-448 | the column loop draws four marks per column, mark i belonging to column i div 4 |
| Cells.RowsMarks | ticket.py:449-458 | the row loop draws four marks per row, mark i belonging to row i div 4 |
| Cells.PaintCropmarks | ticket.py:435-461 | no grid raises TypeError. With a grid but no page size it raises TypeError exactly when some loop runs. Otherwise it draws 4 marks per column plus 4 per row (none for a non-positive count): the column loop's marks, then the row loop's, as ColumnsMarks and RowsMarks give them |
| Cells.ColumnMarksFrameCells | ticket.py:439-448 | a column's marks sit on that column's two cut lines, moved in by the bleed, running by the crop-mark length down from the bottom cell and up from the top cell |
| Cells.RowMarksFrameCells | ticket.py:449-458 | a row's marks sit on that row's two cut lines, moved in by the bleed, running by the crop-mark length out from the first and the last column |
| NumberFormat.FormatNumber | ticket.py:42-44 | a negative width raises ValueError. Otherwise the result is non-empty, starts with a minus sign exactly when the number is negative, and is all digits after it |
| NumberFormat.FormatNumberParses | ticket.py:42-44 | reading the formatted number back gives the number: zero padding loses nothing |
| NumberFormat.FormatNumberWidth | ticket.py:42-44 | the result is as wide as requested, or as wide as the plain numeral when that is wider, in which case it is the plain numeral |
| Driver.ContentsConcat | ticket.py:534-551 | the numbers, labels, page breaks and lines of two event lists drawn in sequence are those of the first followed by those of the second |
| Driver.Advance | ticket.py:546-550 | for a column inside the grid, the step stays inside the grid's columns and moves to the next cell in row-major order (row * colcount + col grows by one) |
| Driver.CellOfNumbers | ticket.py:546-550 | numbering cells row by row from 0, the walk's k-th cell has column k mod colcount and number k |
| Driver.AdvanceCellOf | ticket.py:546-550 | one step of the column/row walk moves from the cell of ticket k to the cell of ticket k + 1 |
| Driver.CellOfInRange | ticket.py:546-550 | on a page holding at most tpp tickets, every ticket's row is below rowcount and its column below colcount |
| Driver.PaintNumbers | ticket.py:540-550 | the inner loop raises TypeError exactly when there are tickets and no page size; otherwise it draws one stamp per number, carrying that number, in order |
| Driver.PaintNumbersIsStampRun | ticket.py:540-550 | the inner loop gives ticket k the next label in request order and the origin of cell (k mod colcount, k div colcount), and uses up one label request per ticket |
| Driver.StampsInGrid | ticket.py:540-550 | on a page holding at most tpp tickets every stamp lies in the grid area and no two stamps share an origin |
| Driver.PaintPage | ticket.py:535-551 | one page fails exactly as its crop marks or its inner loop fail |
| Driver.PaintPageIs | ticket.py:535-551 | one page draws its crop marks, then exactly the reference stamps, then one page break, and uses one label request per ticket |
| Driver.PaintPages | ticket.py:535-551 | no pages draw nothing and keep the labels; failing crop marks fail a non-empty run; when the crop marks succeed, the outer loop succeeds exactly when there is a page size or no page holds a ticket (with a cleared page size, stamping the first ticket raises TypeError) |
| Driver.PaintPagesIsRun | ticket.py:535-551 | the outer loop draws the pages in order, each page's labels continuing where the previous page stopped |
| Driver.RunOutputIsRun | ticket.py:535-551 | the assembled run draws the reference events and leaves the labels one request per ticket leaves |
| Driver.RunEventsNumbers | ticket.py:535-551 | counts over the reference run: it stamps the numbers of the pages in page order, and holds one page break per page and one line per crop mark per page |
| Driver.PaintPagesEvents | ticket.py:535-551 | the outer loop's events are exactly the reference run: for each page in order, its crop-mark lines, its stamps and one page break |
| Driver.RunEventsLabels | ticket.py:501-551 | across all pages the run hands out the labels of consecutive requests, one per ticket, continuing from page to page |
| Driver.PaintPagesContents | ticket.py:535-551 | the outer loop stamps exactly the concatenated pages' numbers, hands out labels in request order, and leaves the unused labels; it gives the totals of page breaks (one per page) and lines (the crop marks times the pages), while PaintPagesEvents states where they fall |
| Driver.GenerateNumbers | ticket.py:534 | without a grid `range(0, None)` raises TypeError; otherwise the page list has the grid's page count |
| Driver.GenerateNumbersPermutation | ticket.py:534 | on a consistent layout with room for a ticket, every recognised order numbers numpages pages with the whole range, at most tpp per page |
| Driver.Generate | ticket.py:507-551 | without a grid `generate` raises TypeError. A numbering error is passed on unchanged. With a page size and a successful numbering it draws the run. With a grid, a cleared page size and a successful numbering it raises TypeError exactly when there is a page and either crop marks are on with a positive column or row count, or some page holds a ticket |
| Driver.GenerateDrawsRun | ticket.py:507-551 | once the pages are numbered, `generate` draws exactly the reference run: page after page its crop-mark lines (none when disabled), its stamps and one page break, with the labels taken from the layout's list |
| Driver.GenerateStampsEveryNumber | ticket.py:507-551 | on a consistent layout, under every recognised order, `generate` stamps each number of the range exactly once. It hands out the labels from the end of the list, then "", and leaves the labels not handed out. It gives the totals of page breaks (numpages) and lines (the crop marks per page times numpages); GenerateDrawsRun places them page by page |

## Left out

- The drawable classes (`Border`, `Image`, `Box`, `QrCodeDrawable`, the font drawables, `RotatedLabel`): these are canvas, font-metric and QR-library calls. `Ticket.paint` is not modelled beyond the stamp event.
- The `Ticket` setters (`set_number`, `set_label`, `set_origin`) are the fields of the `Stamp` event: number, `text` (the label) and origin.
- Canvas state: `saveState`/`restoreState`, stroke width and colour. Crop marks are bare segments, and `showPage` is the `ShowPage` event.
- `paint_printable_area` (ticket.py:417-433): a debugging frame that `generate` never calls.
- Floating point: dimensions are integers, and `int(...)` and `ceil(...)` are modelled exactly on them, so IEEE rounding is not modelled.
- The randomness of `shuffle`: the shuffled list is an input, required to be a permutation of the range wherever random order is proved about.
- Repeated calls to `generate_numbers`: `self.numbers` is never cleared, so a second call appends to the pages of the first. The model numbers an empty page list once.
- Partial output before an exception: a failing run yields only its error, not the events drawn, the numbers appended or the labels popped before the failure.
- Partial updates before an exception in `set_margins` and `set_pagesize`: `set_pagesize` stores the new page size (ticket.py:414) before `set_margins` raises, and `set_margins` writes the usable sizes, the column and row counts and the tickets per page (ticket.py:395-399) before it raises at line 397, 398 or 400. A caller that catches the exception keeps that half-updated layout; the model returns only the exception.
- The attributes `set_margins` stores but nothing reads: `usable_pagewidth`, `usable_pageheight` and `ticket_on_last_page`. Only the division error of its `%` is modelled.
- The identity tests `cropmarks is True` and `invert is True` are modelled as boolean parameters. Truthy non-boolean values are not modelled.
- The shared mutable default `labels=[]`: each layout owns its own label list.
- `format_number` with a width that is not an integer is not modelled.
- `samples.py` and `sample01.py`: demo scripts that read a names file and write PDFs; they contain no logic of their own.

=== FILE: arith.dfy ===
/** Python's integer-producing divisions, written out over Dafny's
    unbounded integers (whose `/` is Euclidean). The facts about them are
    lemmas, called where needed, so that the products they mention do not
    reach every proof that merely uses a division. */
module Arith {

  function Abs(a: int): nat {
    if a < 0 then -a else a
  }

  /** `int(a / b)`: the true quotient truncated toward zero. */
  function TruncDiv(a: int, b: int): int
    requires b != 0
  {
    var m := Abs(a) / Abs(b);
    if (a >= 0) == (b > 0) then m else -m
  }

  /** Floor division, for either sign of divisor. */
  function FloorDiv(a: int, b: int): int
    requires b != 0
  {
    if b > 0 then a / b else (-a) / (-b)
  }

  /** `math.ceil(a / b)`. */
  function CeilDiv(a: int, b: int): int
    requires b != 0
  {
    -FloorDiv(-a, b)
  }

  /** Truncation rounds toward zero: for a positive divisor, a non-negative
      dividend is rounded down and a negative one up. */
  lemma TruncDivBounds(a: int, b: int)
    requires b != 0
    ensures 0 < b && 0 <= a ==> TruncDiv(a, b) * b <= a < TruncDiv(a, b) * b + b
    ensures 0 < b && a < 0 ==> TruncDiv(a, b) * b - b < a <= TruncDiv(a, b) * b
    ensures Abs(TruncDiv(a, b)) * Abs(b) <= Abs(a)
    ensures 0 < b ==> (TruncDiv(a, b) < 0 <==> a <= -b)
  {
    var m := Abs(a) / Abs(b);
    DivBelow(Abs(a), Abs(b));
    DivNonNegative(Abs(a), Abs(b));
    assert Abs(TruncDiv(a, b)) == m;
    if 0 < b && a < 0 {
      TruncDivNegative(a, b);
    }
  }

  lemma DivNonNegative(a: nat, b: int)
    requires 0 < b
    ensures 0 <= a / b
  {
  }

  /** A negative dividend over a positive divisor: the quotient is rounded up. */
  lemma TruncDivNegative(a: int, b: int)
    requires 0 < b && a < 0
    ensures TruncDiv(a, b) * b - b < a <= TruncDiv(a, b) * b
    ensures TruncDiv(a, b) < 0 <==> a <= -b
  {
    var m := (-a) / b;
    assert TruncDiv(a, b) == -m;
    DivBelow(-a, b);
    NegMul(m, b);
    if a <= -b {
      MulMono(1, m, b);
    } else {
      DivUnique(-a, b, 0);
    }
  }

  lemma NegMul(m: int, b: int)
    ensures (-m) * b == -(m * b)
  {
  }

  /** The ceiling quotient is the least number of blocks of size b that
      cover a (for a positive b), and the analogue for a negative b. */
  lemma CeilDivBounds(a: int, b: int)
    requires b != 0
    ensures 0 < b ==> CeilDiv(a, b) * b - b < a <= CeilDiv(a, b) * b
    ensures b < 0 ==> CeilDiv(a, b) * b <= a < CeilDiv(a, b) * b - b
  {
    if b > 0 {
      DivBelow(-a, b);
    } else {
      DivBelow(a, -b);
    }
  }

  /** The Euclidean quotient brackets the dividend. */
  lemma DivBelow(a: int, b: int)
    requires 0 < b
    ensures (a / b) * b <= a < (a / b) * b + b
  {
  }

  /** The quotient is determined by the bracket it lies in. */
  lemma DivUnique(a: int, b: int, q: int)
    requires 0 < b
    requires q * b <= a < q * b + b
    ensures a / b == q
    ensures a % b == a - q * b
  {
    DivBelow(a, b);
    var d := a / b;
    if d < q {
      MulMono(d + 1, q, b);
    } else if d > q {
      MulMono(q + 1, d, b);
    }
  }

  lemma MulMono(x: int, y: int, b: int)
    requires x <= y && 0 <= b
    ensures x * b <= y * b
  {
    assert y * b - x * b == (y - x) * b;
  }

  lemma DivMono(a: int, b: int, m: int)
    requires a <= b && 0 < m
    ensures a / m <= b / m
  {
    DivBelow(a, m);
    DivBelow(b, m);
    if a / m > b / m {
      MulMono(b / m + 1, a / m, m);
    }
  }

  /** Ceiling division by a positive divisor counts the blocks needed to
      hold a non-negative amount, and is at most zero for a non-positive one. */
  lemma CeilDivPositive(a: int, b: int)
    requires 0 < b
    ensures a <= 0 ==> CeilDiv(a, b) <= 0
    ensures a == 0 ==> CeilDiv(a, b) == 0
    ensures 0 < a ==> 1 <= CeilDiv(a, b)
    ensures 0 <= a ==> CeilDiv(a, b) == (a + b - 1) / b
  {
    var q := CeilDiv(a, b);
    CeilDivBounds(a, b);
    if a <= 0 {
      if q > 0 {
        MulMono(1, q, b);
      }
    }
    if a == 0 {
      if q < 0 {
        MulMono(q, -1, b);
      }
    }
    if 0 < a {
      if q <= 0 {
        MulMono(q, 0, b);
      }
    }
    if 0 <= a {
      DivUnique(a + b - 1, b, q);
    }
  }

  /** One more block of b adds one to the ceiling quotient. */
  lemma CeilDivStep(a: nat, b: int)
    requires 0 < b
    ensures CeilDiv(a + b, b) == CeilDiv(a, b) + 1
  {
    CeilDivPositive(a, b);
    CeilDivPositive(a + b, b);
    DivBelow(a + b - 1, b);
    DivUnique(a + b - 1 + b, b, (a + b - 1) / b + 1);
  }

  /** Removing one block of b lowers the quotient by one and keeps the
      remainder. */
  lemma DivShift(a: int, b: int)
    requires 0 < b
    ensures a / b == (a - b) / b + 1
    ensures a % b == (a - b) % b
  {
    var q := (a - b) / b;
    DivBelow(a - b, b);
    assert (q + 1) * b == q * b + b;
    DivUnique(a, b, q + 1);
  }

  /** Counting up by one: the remainder steps up, or wraps to zero and
      carries into the quotient. */
  lemma DivModNext(k: int, c: int)
    requires 0 < c
    ensures k % c < c - 1 ==> (k + 1) / c == k / c && (k + 1) % c == k % c + 1
    ensures k % c == c - 1 ==> (k + 1) / c == k / c + 1 && (k + 1) % c == 0
  {
    var q := k / c;
    DivUnique(k, c, q);
    if k % c < c - 1 {
      DivUnique(k + 1, c, q);
    } else {
      assert (q + 1) * c == q * c + c;
      DivUnique(k + 1, c, q + 1);
    }
  }

  /** An offset below n blocks of size w falls in exactly one of them, the
      one its quotient names. */
  lemma BlockOf(d: int, w: int, n: int, c: int)
    requires 0 < w && 0 <= d < n * w
    ensures (0 <= c < n && c * w <= d < c * w + w) <==> c == d / w
  {
    DivBelow(d, w);
    if d / w >= n {
      MulMono(n, d / w, w);
    }
    if 0 <= c < n && c * w <= d < c * w + w {
      DivUnique(d, w, c);
    }
  }
}

=== FILE: cells.dfy ===
/** Placement of tickets on a page and the crop marks around the grid
    (`PageLayout.get_cell` and `PageLayout.paint_cropmarks` in ticket.py).
    Page coordinates have their origin at the bottom-left corner; grid rows
    are counted from the top, the rows of crop marks from the bottom. */
module Cells {
  import opened Failures
  import opened Arith
  import opened Layout

  datatype Point = Point(x: int, y: int)

  /** A straight line from (x1, y1) to (x2, y2). */
  datatype Segment = Segment(x1: int, y1: int, x2: int, y2: int)

  /** Bottom-left corner of the cell in column `col` and row `row`, rows
      counted from the top. */
  function Origin(page: PageSize, g: Grid, t: Ticket, col: int, row: int): Point
  {
    Point(g.realmargins.left + col * t.width,
          page.height - g.realmargins.top - (row + 1) * t.height)
  }

  /** `get_cell`. The real margins are read first, so a layout whose grid was
      never computed fails on them; a layout whose page size was cleared
      afterwards fails when the page height is read. */
  function GetCell(l: PageLayout, col: int, row: int): (r: Result<Point>)
    ensures l.grid.None? ==> r == Err(AttributeError)
    ensures l.grid.Some? && l.pagesize.None? ==> r == Err(TypeError)
    ensures r.Ok? <==> l.grid.Some? && l.pagesize.Some?
    ensures r.Ok? ==> r.value == Origin(l.pagesize.value, l.grid.value, l.ticket, col, row)
  {
    match l.grid
    case None => Err(AttributeError)
    case Some(g) =>
      match l.pagesize
      case None => Err(TypeError)
      case Some(page) => Ok(Origin(page, g, l.ticket, col, row))
  }

  /** The first cell sits in the top-left corner of the real margins, and
      each step one column right moves the corner one ticket width right,
      each step one row down moves it one ticket height down. */
  lemma OriginSteps(page: PageSize, g: Grid, t: Ticket, col: int, row: int)
    ensures Origin(page, g, t, 0, 0) == Point(g.realmargins.left, page.height - g.realmargins.top - t.height)
    ensures Origin(page, g, t, col + 1, row) == Point(Origin(page, g, t, col, row).x + t.width, Origin(page, g, t, col, row).y)
    ensures Origin(page, g, t, col, row + 1) == Point(Origin(page, g, t, col, row).x, Origin(page, g, t, col, row).y - t.height)
  {
    assert (col + 1) * t.width == col * t.width + t.width;
    assert (row + 2) * t.height == (row + 1) * t.height + t.height;
  }

  /** Point p lies in the cell whose corner is `o`. */
  predicate InCell(p: Point, o: Point, t: Ticket) {
    o.x <= p.x < o.x + t.width && o.y <= p.y < o.y + t.height
  }

  /** The area the grid occupies: inside all four real margins. */
  predicate InGridArea(p: Point, page: PageSize, g: Grid) {
    && g.realmargins.left <= p.x < page.width - g.realmargins.right
    && g.realmargins.bottom <= p.y < page.height - g.realmargins.top
  }

  /** A grid with positive counts of positive-sized tickets, as set_margins
      computes it for the layout's own page and margins. */
  ghost predicate Tiled(l: PageLayout) {
    && Consistent(l)
    && 0 < l.ticket.width && 0 < l.ticket.height
    && 0 < l.grid.value.colcount && 0 < l.grid.value.rowcount
  }

  /** The grid's outer cells meet the real margins: the first column starts at
      the left margin, the last column ends at the right one, the first row
      ends at the top margin and the last row starts at the bottom one. */
  lemma GridCorners(l: PageLayout, col: int, row: int)
    requires Consistent(l)
    ensures var o := Origin(l.pagesize.value, l.grid.value, l.ticket, 0, row);
      o.x == l.grid.value.realmargins.left
    ensures var o := Origin(l.pagesize.value, l.grid.value, l.ticket, l.grid.value.colcount - 1, row);
      o.x + l.ticket.width == l.pagesize.value.width - l.grid.value.realmargins.right
    ensures var o := Origin(l.pagesize.value, l.grid.value, l.ticket, col, 0);
      o.y + l.ticket.height == l.pagesize.value.height - l.grid.value.realmargins.top
    ensures var o := Origin(l.pagesize.value, l.grid.value, l.ticket, col, l.grid.value.rowcount - 1);
      o.y == l.grid.value.realmargins.bottom
  {
    var g := l.grid.value;
    var t := l.ticket;
    assert GridFacts(g, l.pagesize.value, l.cropmarks.length, t, l.numtickets, l.minmargins.value);
    assert (g.colcount - 1) * t.width + t.width == g.colcount * t.width;
    assert (g.rowcount - 1 + 1) * t.height == g.rowcount * t.height;
  }

  /** The cell of the grid a point of the grid area falls in. */
  function CellAt(page: PageSize, g: Grid, t: Ticket, p: Point): (int, int)
    requires 0 < t.width && 0 < t.height
  {
    ((p.x - g.realmargins.left) / t.width,
     (page.height - g.realmargins.top - 1 - p.y) / t.height)
  }

  /** Every point of the grid area lies in exactly one cell of the grid, the
      one CellAt names: the cells tile the area without gaps or overlaps. */
  lemma CellsTile(l: PageLayout, p: Point, col: int, row: int)
    requires Tiled(l) && InGridArea(p, l.pagesize.value, l.grid.value)
    ensures var g := l.grid.value;
      0 <= col < g.colcount && 0 <= row < g.rowcount
      && InCell(p, Origin(l.pagesize.value, g, l.ticket, col, row), l.ticket)
      <==> (col, row) == CellAt(l.pagesize.value, g, l.ticket, p)
  {
    var page := l.pagesize.value;
    var g := l.grid.value;
    var t := l.ticket;
    assert GridFacts(g, page, l.cropmarks.length, t, l.numtickets, l.minmargins.value);
    var dx := p.x - g.realmargins.left;
    var dy := page.height - g.realmargins.top - 1 - p.y;
    var o := Origin(page, g, t, col, row);
    assert o.x <= p.x < o.x + t.width <==> col * t.width <= dx < col * t.width + t.width;
    assert (row + 1) * t.height == row * t.height + t.height;
    assert o.y <= p.y < o.y + t.height <==> row * t.height <= dy < row * t.height + t.height;
    BlockOf(dx, t.width, g.colcount, col);
    BlockOf(dy, t.height, g.rowcount, row);
  }

  // ---------------------------------------------------------------------
  // Crop marks

  /** The four marks of column `col`: at its two cut lines, moved inwards by
      the bleed, one pair below the grid and one pair above it. */
  function ColumnMarks(page: PageSize, g: Grid, t: Ticket, crop: int, bleed: int, col: int): (r: seq<Segment>)
    ensures |r| == 4
  {
    var m := g.realmargins;
    var x0 := m.left + col * t.width + bleed;
    var x1 := m.left + (col + 1) * t.width - bleed;
    var top := page.height - m.top;
    [Segment(x0, m.bottom, x0, m.bottom - crop),
     Segment(x1, m.bottom, x1, m.bottom - crop),
     Segment(x0, top, x0, top + crop),
     Segment(x1, top, x1, top + crop)]
  }

  /** The four marks of row `row`, counted from the bottom of the grid: at its
      two cut lines, moved inwards by the bleed, one pair left of the grid and
      one pair right of it. */
  function RowMarks(page: PageSize, g: Grid, t: Ticket, crop: int, bleed: int, row: int): (r: seq<Segment>)
    ensures |r| == 4
  {
    var m := g.realmargins;
    var y0 := m.bottom + bleed + row * t.height;
    var y1 := m.bottom + (row + 1) * t.height - bleed;
    var right := page.width - m.right;
    [Segment(m.left, y0, m.left - crop, y0),
     Segment(m.left, y1, m.left - crop, y1),
     Segment(right, y0, right + crop, y0),
     Segment(right, y1, right + crop, y1)]
  }

  /** The column loop of `paint_cropmarks`, run over `range(0, n)`. */
  function ColumnsMarks(page: PageSize, g: Grid, t: Ticket, crop: int, bleed: int, n: int): (r: seq<Segment>)
    ensures |r| == if n < 0 then 0 else 4 * n
    ensures forall i :: 0 <= i < |r| ==> r[i] == ColumnMarks(page, g, t, crop, bleed, i / 4)[i % 4]
    decreases n
  {
    if n <= 0 then []
    else
      var prev := ColumnsMarks(page, g, t, crop, bleed, n - 1);
      var r := prev + ColumnMarks(page, g, t, crop, bleed, n - 1);
      forall i | 4 * (n - 1) <= i < 4 * n
        ensures i / 4 == n - 1 && i % 4 == i - 4 * (n - 1)
      {
        DivUnique(i, 4, n - 1);
      }
      r
  }

  /** The row loop of `paint_cropmarks`, run over `range(0, n)`. */
  function RowsMarks(page: PageSize, g: Grid, t: Ticket, crop: int, bleed: int, n: int): (r: seq<Segment>)
    ensures |r| == if n < 0 then 0 else 4 * n
    ensures forall i :: 0 <= i < |r| ==> r[i] == RowMarks(page, g, t, crop, bleed, i / 4)[i % 4]
    decreases n
  {
    if n <= 0 then []
    else
      var prev := RowsMarks(page, g, t, crop, bleed, n - 1);
      var r := prev + RowMarks(page, g, t, crop, bleed, n - 1);
      forall i | 4 * (n - 1) <= i < 4 * n
        ensures i / 4 == n - 1 && i % 4 == i - 4 * (n - 1)
      {
        DivUnique(i, 4, n - 1);
      }
      r
  }

  /** `paint_cropmarks` as the list of lines it draws. With no grid the loop
      bound is `None` and `range` raises; with no page size the first mark
      that needs the page size raises, and a grid with no positive count
      draws nothing at all. */
  function PaintCropmarks(l: PageLayout): (r: Result<seq<Segment>>)
    ensures l.grid.None? ==> r == Err(TypeError)
    ensures l.grid.Some? && l.pagesize.None? ==>
      (r.Err? <==> 0 < l.grid.value.colcount || 0 < l.grid.value.rowcount)
    ensures r.Err? ==> r.error == TypeError
    ensures l.grid.Some? && l.pagesize.Some? ==> r.Ok?
    ensures r.Ok? && l.grid.Some? ==>
      |r.value| == 4 * (Clamp(l.grid.value.colcount) + Clamp(l.grid.value.rowcount))
    ensures l.grid.Some? && l.pagesize.Some? ==>
      var page := l.pagesize.value;
      var g := l.grid.value;
      r == Ok(ColumnsMarks(page, g, l.ticket, l.cropmarks.length, l.bleed, g.colcount)
              + RowsMarks(page, g, l.ticket, l.cropmarks.length, l.bleed, g.rowcount))
  {
    match l.grid
    case None => Err(TypeError)
    case Some(g) =>
      match l.pagesize
      case None =>
        if 0 < g.colcount || 0 < g.rowcount then Err(TypeError) else Ok([])
      case Some(page) =>
        Ok(ColumnsMarks(page, g, l.ticket, l.cropmarks.length, l.bleed, g.colcount)
           + RowsMarks(page, g, l.ticket, l.cropmarks.length, l.bleed, g.rowcount))
  }

  /** The number of passes `range(0, n)` makes. */
  function Clamp(n: int): nat {
    if n < 0 then 0 else n
  }

  /** The column marks in terms of the left edge of the column's cells. */
  lemma ColumnMarksAt(page: PageSize, g: Grid, t: Ticket, crop: int, bleed: int, col: int)
    ensures var x := g.realmargins.left + col * t.width;
      var m := g.realmargins;
      var marks := ColumnMarks(page, g, t, crop, bleed, col);
      && marks[0] == Segment(x + bleed, m.bottom, x + bleed, m.bottom - crop)
      && marks[1] == Segment(x + t.width - bleed, m.bottom, x + t.width - bleed, m.bottom - crop)
      && marks[2] == Segment(x + bleed, page.height - m.top, x + bleed, page.height - m.top + crop)
      && marks[3] == Segment(x + t.width - bleed, page.height - m.top, x + t.width - bleed, page.height - m.top + crop)
  {
    assert (col + 1) * t.width == col * t.width + t.width;
  }

  /** The row marks in terms of the lower edge of the row's cells. */
  lemma RowMarksAt(page: PageSize, g: Grid, t: Ticket, crop: int, bleed: int, row: int)
    ensures var y := g.realmargins.bottom + row * t.height;
      var m := g.realmargins;
      var marks := RowMarks(page, g, t, crop, bleed, row);
      && marks[0] == Segment(m.left, y + bleed, m.left - crop, y + bleed)
      && marks[1] == Segment(m.left, y + t.height - bleed, m.left - crop, y + t.height - bleed)
      && marks[2] == Segment(page.width - m.right, y + bleed, page.width - m.right + crop, y + bleed)
      && marks[3] == Segment(page.width - m.right, y + t.height - bleed, page.width - m.right + crop, y + t.height - bleed)
  {
    assert (row + 1) * t.height == row * t.height + t.height;
  }

  /** The column marks sit on the cut lines of that column's cells, moved in
      by the bleed, and run from the bottom cell's lower edge down, and from
      the top cell's upper edge up, by the crop-mark length. */
  lemma ColumnMarksFrameCells(l: PageLayout, col: int, row: int)
    requires Consistent(l)
    ensures var page := l.pagesize.value;
      var g := l.grid.value;
      var t := l.ticket;
      var crop := l.cropmarks.length;
      var marks := ColumnMarks(page, g, t, crop, l.bleed, col);
      var cell := Origin(page, g, t, col, row);
      var bottom := Origin(page, g, t, col, g.rowcount - 1);
      var top := Origin(page, g, t, col, 0);
      && marks[0] == Segment(cell.x + l.bleed, bottom.y, cell.x + l.bleed, bottom.y - crop)
      && marks[1] == Segment(cell.x + t.width - l.bleed, bottom.y, cell.x + t.width - l.bleed, bottom.y - crop)
      && marks[2] == Segment(cell.x + l.bleed, top.y + t.height, cell.x + l.bleed, top.y + t.height + crop)
      && marks[3] == Segment(cell.x + t.width - l.bleed, top.y + t.height,
                             cell.x + t.width - l.bleed, top.y + t.height + crop)
  {
    GridCorners(l, col, row);
    ColumnMarksAt(l.pagesize.value, l.grid.value, l.ticket, l.cropmarks.length, l.bleed, col);
  }

  /** The marks of row `row` counted from the bottom sit on the cut lines of
      grid row rowcount - 1 - row, moved in by the bleed, and run outwards
      from the first and the last column by the crop-mark length. */
  lemma RowMarksFrameCells(l: PageLayout, col: int, row: int)
    requires Consistent(l)
    ensures var page := l.pagesize.value;
      var g := l.grid.value;
      var t := l.ticket;
      var crop := l.cropmarks.length;
      var marks := RowMarks(page, g, t, crop, l.bleed, row);
      var cell := Origin(page, g, t, col, g.rowcount - 1 - row);
      var first := Origin(page, g, t, 0, g.rowcount - 1 - row);
      var last := Origin(page, g, t, g.colcount - 1, g.rowcount - 1 - row);
      && marks[0] == Segment(first.x, cell.y + l.bleed, first.x - crop, cell.y + l.bleed)
      && marks[1] == Segment(first.x, cell.y + t.height - l.bleed, first.x - crop, cell.y + t.height - l.bleed)
      && marks[2] == Segment(last.x + t.width, cell.y + l.bleed, last.x + t.width + crop, cell.y + l.bleed)
      && marks[3] == Segment(last.x + t.width, cell.y + t.height - l.bleed,
                             last.x + t.width + crop, cell.y + t.height - l.bleed)
  {
    var g := l.grid.value;
    var t := l.ticket;
    GridCorners(l, col, g.rowcount - 1 - row);
    assert (g.rowcount - 1 - row + 1) * t.height == g.rowcount * t.height - row * t.height;
    RowMarksAt(l.pagesize.value, g, t, l.cropmarks.length, l.bleed, row);
  }
}

=== FILE: driver.dfy ===
/** The print run (`PageLayout.generate` in ticket.py) as the list of things
    it draws: crop-mark lines, ticket stamps and page breaks. A stamp carries
    what the ticket's setters receive before it is painted: its number, its
    label and the origin of its cell. */
module Driver {
  import opened Failures
  import opened Arith
  import opened Seqs
  import opened Layout
  import opened Numbering
  import opened Labels
  import opened Cells

  datatype Event =
    | Line(segment: Segment)
    | Stamp(number: int, text: string, x: int, y: int)
    | ShowPage

  /** The events drawn so far and the labels not yet handed out. */
  datatype Output = Output(events: seq<Event>, labels: seq<string>)

  // ---------------------------------------------------------------------
  // What an event list contains

  function NumbersOf(es: seq<Event>): seq<int> {
    if |es| == 0 then []
    else (if es[0].Stamp? then [es[0].number] else []) + NumbersOf(es[1..])
  }

  function LabelsOf(es: seq<Event>): seq<string> {
    if |es| == 0 then []
    else (if es[0].Stamp? then [es[0].text] else []) + LabelsOf(es[1..])
  }

  function PageBreaks(es: seq<Event>): nat {
    if |es| == 0 then 0 else (if es[0].ShowPage? then 1 else 0) + PageBreaks(es[1..])
  }

  function LineCount(es: seq<Event>): nat {
    if |es| == 0 then 0 else (if es[0].Line? then 1 else 0) + LineCount(es[1..])
  }

  /** What two event lists drawn one after the other contain: the contents
      of the first, then those of the second. */
  lemma ContentsConcat(a: seq<Event>, b: seq<Event>)
    ensures NumbersOf(a + b) == NumbersOf(a) + NumbersOf(b)
    ensures LabelsOf(a + b) == LabelsOf(a) + LabelsOf(b)
    ensures PageBreaks(a + b) == PageBreaks(a) + PageBreaks(b)
    ensures LineCount(a + b) == LineCount(a) + LineCount(b)
  {
    NumbersConcat(a, b);
    LabelsConcat(a, b);
    BreaksConcat(a, b);
    LinesConcat(a, b);
  }

  lemma {:induction false} NumbersConcat(a: seq<Event>, b: seq<Event>)
    ensures NumbersOf(a + b) == NumbersOf(a) + NumbersOf(b)
    decreases |a|
  {
    if |a| == 0 {
      assert a + b == b;
    } else {
      var h := if a[0].Stamp? then [a[0].number] else [];
      assert (a + b)[0] == a[0];
      assert (a + b)[1..] == a[1..] + b;
      NumbersConcat(a[1..], b);
      assert NumbersOf(a + b) == h + (NumbersOf(a[1..]) + NumbersOf(b));
      assert h + (NumbersOf(a[1..]) + NumbersOf(b)) == (h + NumbersOf(a[1..])) + NumbersOf(b);
    }
  }

  lemma {:induction false} LabelsConcat(a: seq<Event>, b: seq<Event>)
    ensures LabelsOf(a + b) == LabelsOf(a) + LabelsOf(b)
    decreases |a|
  {
    if |a| == 0 {
      assert a + b == b;
    } else {
      var h := if a[0].Stamp? then [a[0].text] else [];
      assert (a + b)[0] == a[0];
      assert (a + b)[1..] == a[1..] + b;
      LabelsConcat(a[1..], b);
      assert LabelsOf(a + b) == h + (LabelsOf(a[1..]) + LabelsOf(b));
      assert h + (LabelsOf(a[1..]) + LabelsOf(b)) == (h + LabelsOf(a[1..])) + LabelsOf(b);
    }
  }

  lemma {:induction false} BreaksConcat(a: seq<Event>, b: seq<Event>)
    ensures PageBreaks(a + b) == PageBreaks(a) + PageBreaks(b)
    decreases |a|
  {
    if |a| == 0 {
      assert a + b == b;
    } else {
      assert (a + b)[1..] == a[1..] + b;
      BreaksConcat(a[1..], b);
    }
  }

  lemma {:induction false} LinesConcat(a: seq<Event>, b: seq<Event>)
    ensures LineCount(a + b) == LineCount(a) + LineCount(b)
    decreases |a|
  {
    if |a| == 0 {
      assert a + b == b;
    } else {
      assert (a + b)[1..] == a[1..] + b;
      LinesConcat(a[1..], b);
    }
  }

  // ---------------------------------------------------------------------
  // The walk over the cells of one page

  /** The cell after (col, row) in the walk of `generate`: along the row, then
      to the first column of the next row. */
  function Advance(colcount: int, col: int, row: int): (r: (int, int))
    ensures 0 <= col < colcount ==> 0 <= r.0 < colcount && r.1 * colcount + r.0 == row * colcount + col + 1
  {
    if col < colcount - 1 then (col + 1, row) else (0, row + 1)
  }

  /** The cell of the k-th ticket of a page: row-major order, one ticket per
      row when the column count is not positive. */
  function CellOf(colcount: int, k: nat): (int, int) {
    if 1 <= colcount then (k % colcount, k / colcount) else (0, k)
  }

  /** Numbering the cells row by row from 0, the k-th cell is in a column of
      the grid and has number k. */
  lemma CellOfNumbers(colcount: int, k: nat)
    requires 1 <= colcount
    ensures var c := CellOf(colcount, k);
      0 <= c.0 < colcount && c.1 * colcount + c.0 == k
  {
    DivBelow(k, colcount);
  }

  /** One step of the walk moves from the cell of ticket k to the cell of
      ticket k + 1. */
  lemma AdvanceCellOf(colcount: int, k: nat)
    ensures Advance(colcount, CellOf(colcount, k).0, CellOf(colcount, k).1) == CellOf(colcount, k + 1)
  {
    if 1 <= colcount {
      DivModNext(k, colcount);
    }
  }

  /** The inner loop of `generate` over the numbers of one page, starting in
      cell (col, row): each number takes the next label and the current cell. */
  function PaintNumbers(l: PageLayout, nums: seq<int>, col: int, row: int, labels: seq<string>): (r: Result<Output>)
    requires l.grid.Some?
    ensures r.Ok? <==> |nums| == 0 || l.pagesize.Some?
    ensures r.Err? ==> r.error == TypeError
    ensures r.Ok? ==> |r.value.events| == |nums|
    ensures r.Ok? ==> forall i :: 0 <= i < |nums| ==> r.value.events[i].Stamp? && r.value.events[i].number == nums[i]
    decreases |nums|
  {
    if |nums| == 0 then Ok(Output([], labels))
    else
      var (text, rest) := GetLabel(labels);
      match GetCell(l, col, row)
      case Err(e) => Err(e)
      case Ok(o) =>
        var next := Advance(l.grid.value.colcount, col, row);
        match PaintNumbers(l, nums[1..], next.0, next.1, rest)
        case Err(e) => Err(e)
        case Ok(out) => Ok(Output([Stamp(nums[0], text, o.x, o.y)] + out.events, out.labels))
  }

  /** What the k-th ticket of a page receives, when it is the request-th
      ticket of the run to ask for a label. */
  function StampAt(page: PageSize, g: Grid, t: Ticket, number: int, k: nat, labels: seq<string>, request: nat): Event {
    var cell := CellOf(g.colcount, k);
    var o := Origin(page, g, t, cell.0, cell.1);
    Stamp(number, LabelAt(labels, request), o.x, o.y)
  }

  /** Reference for the stamps of one page: ticket k gets number nums[k], the
      label of request taken + k, and the cell of position j + k. */
  function StampRun(page: PageSize, g: Grid, t: Ticket, nums: seq<int>, j: nat, labels: seq<string>, taken: nat): (r: seq<Event>)
    ensures |r| == |nums|
  {
    seq(|nums|, k requires 0 <= k < |nums| => StampAt(page, g, t, nums[k], j + k, labels, taken + k))
  }

  /** The k-th ticket of a page, for k below the tickets per page, gets a
      cell of the grid. */
  lemma CellOfInRange(colcount: int, rowcount: int, k: nat)
    requires 0 < colcount && k < colcount * rowcount
    ensures 0 <= CellOf(colcount, k).0 < colcount && 0 <= CellOf(colcount, k).1 < rowcount
  {
    var c := CellOf(colcount, k);
    CellOfNumbers(colcount, k);
    if c.1 >= rowcount {
      MulMono(rowcount, c.1, colcount);
    }
  }

  /** The corner of a cell of the grid lies in the grid area. */
  lemma CornerInGridArea(page: PageSize, g: Grid, t: Ticket, col: int, row: int)
    requires 0 < t.width && 0 < t.height
    requires 0 <= col < g.colcount && 0 <= row < g.rowcount
    requires g.realmargins.left + g.colcount * t.width + g.realmargins.right == page.width
    requires g.realmargins.top + g.rowcount * t.height + g.realmargins.bottom == page.height
    ensures InGridArea(Origin(page, g, t, col, row), page, g)
  {
    MulMono(col + 1, g.colcount, t.width);
    MulMono(row + 1, g.rowcount, t.height);
    assert (col + 1) * t.width == col * t.width + t.width;
    assert (row + 1) * t.height == row * t.height + t.height;
  }

  /** On a tiled grid the k-th ticket of a page, for k below the tickets per
      page, gets a cell of the grid, whose corner lies in the grid area and
      names that cell back. */
  lemma CellOfInGrid(l: PageLayout, k: nat)
    requires Tiled(l) && k < l.grid.value.ticketsPerPage
    ensures var g := l.grid.value;
      var c := CellOf(g.colcount, k);
      var o := Origin(l.pagesize.value, g, l.ticket, c.0, c.1);
      && 0 <= c.0 < g.colcount && 0 <= c.1 < g.rowcount
      && InGridArea(o, l.pagesize.value, g)
      && CellAt(l.pagesize.value, g, l.ticket, o) == c
  {
    var page := l.pagesize.value;
    var g := l.grid.value;
    var t := l.ticket;
    assert GridFacts(g, page, l.cropmarks.length, t, l.numtickets, l.minmargins.value);
    var c := CellOf(g.colcount, k);
    CellOfInRange(g.colcount, g.rowcount, k);
    var o := Origin(page, g, t, c.0, c.1);
    CornerInGridArea(page, g, t, c.0, c.1);
    assert InCell(o, o, t);
    CellsTile(l, o, c.0, c.1);
  }

  /** The stamps of a page holding at most a page's worth of tickets lie in
      the grid area, each in a cell of its own. */
  lemma StampsInGrid(l: PageLayout, nums: seq<int>, labels: seq<string>, taken: nat)
    requires Tiled(l) && |nums| <= l.grid.value.ticketsPerPage
    ensures var es := StampRun(l.pagesize.value, l.grid.value, l.ticket, nums, 0, labels, taken);
      forall i :: 0 <= i < |es| ==> InGridArea(Point(es[i].x, es[i].y), l.pagesize.value, l.grid.value)
    ensures var es := StampRun(l.pagesize.value, l.grid.value, l.ticket, nums, 0, labels, taken);
      forall i, j :: 0 <= i < j < |es| ==> (es[i].x, es[i].y) != (es[j].x, es[j].y)
  {
    var page := l.pagesize.value;
    var g := l.grid.value;
    var es := StampRun(page, g, l.ticket, nums, 0, labels, taken);
    forall i | 0 <= i < |es|
      ensures InGridArea(Point(es[i].x, es[i].y), page, g)
    {
      StampInCell(l, nums, labels, taken, i);
    }
    forall i, j | 0 <= i < j < |es|
      ensures (es[i].x, es[i].y) != (es[j].x, es[j].y)
    {
      StampInCell(l, nums, labels, taken, i);
      StampInCell(l, nums, labels, taken, j);
      CellOfInjective(g.colcount, i, j);
    }
  }

  /** Stamp i of a page lies in the grid area, in the cell of ticket i. */
  lemma StampInCell(l: PageLayout, nums: seq<int>, labels: seq<string>, taken: nat, i: nat)
    requires Tiled(l) && i < |nums| <= l.grid.value.ticketsPerPage
    ensures var e := StampRun(l.pagesize.value, l.grid.value, l.ticket, nums, 0, labels, taken)[i];
      && InGridArea(Point(e.x, e.y), l.pagesize.value, l.grid.value)
      && CellAt(l.pagesize.value, l.grid.value, l.ticket, Point(e.x, e.y)) == CellOf(l.grid.value.colcount, i)
  {
    CellOfInGrid(l, i);
  }

  /** Distinct tickets of a page get distinct cells. */
  lemma CellOfInjective(colcount: int, i: nat, j: nat)
    requires 1 <= colcount && i != j
    ensures CellOf(colcount, i) != CellOf(colcount, j)
  {
    CellOfNumbers(colcount, i);
    CellOfNumbers(colcount, j);
  }

  /** One pass of the inner loop: stamp the first number in the current
      cell with the next label, then walk on from the next cell. */
  lemma PaintNumbersStep(l: PageLayout, nums: seq<int>, col: int, row: int, labels: seq<string>)
    requires l.grid.Some? && l.pagesize.Some? && 0 < |nums|
    ensures var next := Advance(l.grid.value.colcount, col, row);
      var tail := PaintNumbers(l, nums[1..], next.0, next.1, GetLabel(labels).1).value;
      var o := Origin(l.pagesize.value, l.grid.value, l.ticket, col, row);
      PaintNumbers(l, nums, col, row, labels)
      == Ok(Output([Stamp(nums[0], GetLabel(labels).0, o.x, o.y)] + tail.events, tail.labels))
  {
  }

  /** The walk stamps exactly the reference run, and leaves the labels that
      |nums| more requests leave. */
  lemma {:induction false} PaintNumbersIsStampRun(
    l: PageLayout, nums: seq<int>, j: nat, labels: seq<string>, taken: nat)
    requires l.grid.Some? && l.pagesize.Some?
    ensures WalksAsRun(l, nums, j, labels, taken)
    decreases |nums|
  {
    if |nums| == 0 {
      assert StampRun(l.pagesize.value, l.grid.value, l.ticket, nums, j, labels, taken) == [];
    } else {
      PaintNumbersIsStampRun(l, nums[1..], j + 1, labels, taken + 1);
      WalkStep(l, nums, j, labels, taken);
    }
  }

  /** The inner loop, started in the cell of ticket j on what `taken`
      requests left of `labels`, stamps the reference run and leaves what
      |nums| more requests leave. */
  ghost predicate WalksAsRun(l: PageLayout, nums: seq<int>, j: nat, labels: seq<string>, taken: nat)
    requires l.grid.Some? && l.pagesize.Some?
  {
    var cell := CellOf(l.grid.value.colcount, j);
    PaintNumbers(l, nums, cell.0, cell.1, Popped(labels, taken))
    == Ok(Output(StampRun(l.pagesize.value, l.grid.value, l.ticket, nums, j, labels, taken),
                 Popped(labels, taken + |nums|)))
  }

  lemma WalkStep(l: PageLayout, nums: seq<int>, j: nat, labels: seq<string>, taken: nat)
    requires l.grid.Some? && l.pagesize.Some? && 0 < |nums|
    requires WalksAsRun(l, nums[1..], j + 1, labels, taken + 1)
    ensures WalksAsRun(l, nums, j, labels, taken)
  {
    var page := l.pagesize.value;
    var g := l.grid.value;
    var cell := CellOf(g.colcount, j);
    var next := CellOf(g.colcount, j + 1);
    var before := Popped(labels, taken);
    var after := Popped(labels, taken + 1);
    GetLabelPopped(labels, taken);
    AdvanceCellOf(g.colcount, j);
    PaintNumbersStep(l, nums, cell.0, cell.1, before);
    StampRunCons(page, g, l.ticket, nums, j, labels, taken);
    assert taken + 1 + |nums[1..]| == taken + |nums|;
  }

  /** The reference run starts with the stamp of its first ticket. */
  lemma StampRunCons(page: PageSize, g: Grid, t: Ticket, nums: seq<int>, j: nat, labels: seq<string>, taken: nat)
    requires 0 < |nums|
    ensures var o := Origin(page, g, t, CellOf(g.colcount, j).0, CellOf(g.colcount, j).1);
      StampRun(page, g, t, nums, j, labels, taken)
      == [Stamp(nums[0], LabelAt(labels, taken), o.x, o.y)] + StampRun(page, g, t, nums[1..], j + 1, labels, taken + 1)
  {
    var run := StampRun(page, g, t, nums, j, labels, taken);
    var tail := StampRun(page, g, t, nums[1..], j + 1, labels, taken + 1);
    assert run[0] == StampAt(page, g, t, nums[0], j, labels, taken);
    assert run[1..] == tail;
  }

  /** A page's stamps carry the page's numbers and the next labels in
      request order, and draw nothing else. */
  lemma {:induction false} StampRunContents(page: PageSize, g: Grid, t: Ticket, nums: seq<int>, j: nat, labels: seq<string>, taken: nat)
    ensures var es := StampRun(page, g, t, nums, j, labels, taken);
      && NumbersOf(es) == nums
      && LabelsOf(es) == LabelRun(labels, taken, |nums|)
      && PageBreaks(es) == 0
      && LineCount(es) == 0
    decreases |nums|
  {
    if |nums| > 0 {
      var es := StampRun(page, g, t, nums, j, labels, taken);
      assert es[1..] == StampRun(page, g, t, nums[1..], j + 1, labels, taken + 1);
      StampRunContents(page, g, t, nums[1..], j + 1, labels, taken + 1);
    }
  }

  // ---------------------------------------------------------------------
  // Pages

  function LinesOf(marks: seq<Segment>): (r: seq<Event>)
    ensures |r| == |marks|
    ensures forall i :: 0 <= i < |r| ==> r[i] == Line(marks[i])
  {
    seq(|marks|, i requires 0 <= i < |marks| => Line(marks[i]))
  }

  lemma {:induction false} LinesContents(marks: seq<Segment>)
    ensures var es := LinesOf(marks);
      NumbersOf(es) == [] && LabelsOf(es) == [] && PageBreaks(es) == 0 && LineCount(es) == |marks|
    decreases |marks|
  {
    if |marks| > 0 {
      assert LinesOf(marks)[1..] == LinesOf(marks[1..]);
      LinesContents(marks[1..]);
    }
  }

  /** One pass of the outer loop of `generate`. `marks` is what
      `paint_cropmarks` yields on this layout (the same on every page, as it
      depends on the layout alone), or no lines when crop marks are off; then
      come the page's tickets from the top-left cell on, and a page break. */
  function PaintPage(l: PageLayout, marks: Result<seq<Segment>>, nums: seq<int>, labels: seq<string>): (r: Result<Output>)
    requires l.grid.Some?
    ensures marks.Err? ==> r == Err(marks.error)
    ensures marks.Ok? ==> (r.Ok? <==> |nums| == 0 || l.pagesize.Some?)
    ensures marks.Ok? && r.Err? ==> r.error == TypeError
  {
    match marks
    case Err(e) => Err(e)
    case Ok(segments) =>
      match PaintNumbers(l, nums, 0, 0, labels)
      case Err(e) => Err(e)
      case Ok(out) => Ok(Output(PageEvents(segments, out.events), out.labels))
  }

  /** The events of one page: its crop-mark lines, its stamps, a page break. */
  function PageEvents(segments: seq<Segment>, stamps: seq<Event>): seq<Event> {
    LinesOf(segments) + stamps + [ShowPage]
  }

  /** The outer loop of `generate` over the page list, labels carried from
      page to page. */
  function PaintPages(l: PageLayout, marks: Result<seq<Segment>>, pages: seq<seq<int>>, labels: seq<string>): (r: Result<Output>)
    requires l.grid.Some?
    ensures |pages| == 0 ==> r == Ok(Output([], labels))
    ensures 0 < |pages| && marks.Err? ==> r == Err(marks.error)
    ensures marks.Ok? && l.pagesize.Some? ==> r.Ok?
    ensures marks.Ok? ==> (r.Ok? <==> l.pagesize.Some? || Flatten(pages) == [])
    decreases |pages|
  {
    if |pages| == 0 then Ok(Output([], labels))
    else
      match PaintPage(l, marks, pages[0], labels)
      case Err(e) => Err(e)
      case Ok(first) =>
        match PaintPages(l, marks, pages[1..], first.labels)
        case Err(e) => Err(e)
        case Ok(rest) => Ok(Output(first.events + rest.events, rest.labels))
  }

  /** On a layout with a page size, one page draws its crop-mark lines, then
      exactly the reference stamps, then breaks the page. */
  lemma PaintPageIs(l: PageLayout, segments: seq<Segment>, nums: seq<int>, labels: seq<string>, taken: nat)
    requires l.grid.Some? && l.pagesize.Some?
    ensures var stamps := StampRun(l.pagesize.value, l.grid.value, l.ticket, nums, 0, labels, taken);
      PaintPage(l, Ok(segments), nums, Popped(labels, taken))
      == Ok(Output(PageEvents(segments, stamps), Popped(labels, taken + |nums|)))
  {
    PaintNumbersIsStampRun(l, nums, 0, labels, taken);
    assert WalksAsRun(l, nums, 0, labels, taken);
    assert CellOf(l.grid.value.colcount, 0) == (0, 0);
  }

  lemma PageEventsContents(segments: seq<Segment>, stamps: seq<Event>)
    requires PageBreaks(stamps) == 0 && LineCount(stamps) == 0
    ensures var es := PageEvents(segments, stamps);
      && NumbersOf(es) == NumbersOf(stamps)
      && LabelsOf(es) == LabelsOf(stamps)
      && PageBreaks(es) == 1
      && LineCount(es) == |segments|
  {
    LinesContents(segments);
    ContentsConcat(LinesOf(segments), stamps);
    ContentsConcat(LinesOf(segments) + stamps, [ShowPage]);
    assert NumbersOf([ShowPage]) == [] && LabelsOf([ShowPage]) == [];
    assert PageBreaks([ShowPage]) == 1 && LineCount([ShowPage]) == 0;
  }

  /** Reference for a whole run: each page's crop marks, its reference
      stamps with labels continuing where the previous page stopped, and a
      page break. */
  function RunEvents(page: PageSize, g: Grid, t: Ticket, segments: seq<Segment>,
                     pages: seq<seq<int>>, labels: seq<string>, taken: nat): seq<Event>
    decreases |pages|
  {
    if |pages| == 0 then []
    else PageEvents(segments, StampRun(page, g, t, pages[0], 0, labels, taken))
         + RunEvents(page, g, t, segments, pages[1..], labels, taken + |pages[0]|)
  }

  lemma FlattenCount(pages: seq<seq<int>>)
    requires 0 < |pages|
    ensures |Flatten(pages)| == |pages[0]| + |Flatten(pages[1..])|
  {
  }

  /** The output of a run as the outer loop assembles it: the first page's
      reference output, then that of the rest, drawn from the labels the
      first page left. */
  function RunOutput(page: PageSize, g: Grid, t: Ticket, segments: seq<Segment>,
                     pages: seq<seq<int>>, labels: seq<string>, taken: nat): Output
    decreases |pages|
  {
    if |pages| == 0 then Output([], Popped(labels, taken))
    else
      var rest := RunOutput(page, g, t, segments, pages[1..], labels, taken + |pages[0]|);
      Output(PageEvents(segments, StampRun(page, g, t, pages[0], 0, labels, taken)) + rest.events, rest.labels)
  }

  /** On a layout with a page size the outer loop, started on what `taken`
      requests left of `labels`, produces the assembled run. */
  lemma {:induction false} PaintPagesIsRun(
    l: PageLayout, segments: seq<Segment>, pages: seq<seq<int>>, labels: seq<string>, taken: nat)
    requires l.grid.Some? && l.pagesize.Some?
    ensures PaintPages(l, Ok(segments), pages, Popped(labels, taken))
      == Ok(RunOutput(l.pagesize.value, l.grid.value, l.ticket, segments, pages, labels, taken))
    decreases |pages|
  {
    if |pages| > 0 {
      PaintPagesIsRun(l, segments, pages[1..], labels, taken + |pages[0]|);
      PaintPagesRunStep(l, segments, pages, labels, taken);
    }
  }

  /** If the rest of the pages are drawn as the assembled run, so are all. */
  lemma PaintPagesRunStep(l: PageLayout, segments: seq<Segment>, pages: seq<seq<int>>, labels: seq<string>, taken: nat)
    requires l.grid.Some? && l.pagesize.Some? && 0 < |pages|
    requires PaintPages(l, Ok(segments), pages[1..], Popped(labels, taken + |pages[0]|))
      == Ok(RunOutput(l.pagesize.value, l.grid.value, l.ticket, segments, pages[1..], labels, taken + |pages[0]|))
    ensures PaintPages(l, Ok(segments), pages, Popped(labels, taken))
      == Ok(RunOutput(l.pagesize.value, l.grid.value, l.ticket, segments, pages, labels, taken))
  {
    PaintPagesFirst(l, segments, pages, labels, taken);
    RunOutputCons(l.pagesize.value, l.grid.value, l.ticket, segments, pages, labels, taken);
  }

  /** The first page drawn as the reference page, then the rest as drawn. */
  lemma PaintPagesFirst(l: PageLayout, segments: seq<Segment>, pages: seq<seq<int>>, labels: seq<string>, taken: nat)
    requires l.grid.Some? && l.pagesize.Some? && 0 < |pages|
    requires PaintPages(l, Ok(segments), pages[1..], Popped(labels, taken + |pages[0]|))
      == Ok(RunOutput(l.pagesize.value, l.grid.value, l.ticket, segments, pages[1..], labels, taken + |pages[0]|))
    ensures var rest := RunOutput(l.pagesize.value, l.grid.value, l.ticket, segments, pages[1..], labels, taken + |pages[0]|);
      PaintPages(l, Ok(segments), pages, Popped(labels, taken))
      == Ok(Output(PageEvents(segments, StampRun(l.pagesize.value, l.grid.value, l.ticket, pages[0], 0, labels, taken))
                   + rest.events, rest.labels))
  {
    PaintPageIs(l, segments, pages[0], labels, taken);
  }

  lemma RunOutputCons(page: PageSize, g: Grid, t: Ticket, segments: seq<Segment>,
                      pages: seq<seq<int>>, labels: seq<string>, taken: nat)
    requires 0 < |pages|
    ensures var rest := RunOutput(page, g, t, segments, pages[1..], labels, taken + |pages[0]|);
      RunOutput(page, g, t, segments, pages, labels, taken)
      == Output(PageEvents(segments, StampRun(page, g, t, pages[0], 0, labels, taken)) + rest.events, rest.labels)
  {
  }

  /** The assembled run draws the reference events and leaves what one
      request per ticket leaves. */
  lemma {:induction false} RunOutputIsRun(page: PageSize, g: Grid, t: Ticket, segments: seq<Segment>,
                                           pages: seq<seq<int>>, labels: seq<string>, taken: nat)
    ensures var o := RunOutput(page, g, t, segments, pages, labels, taken);
      && o.events == RunEvents(page, g, t, segments, pages, labels, taken)
      && o.labels == Popped(labels, taken + |Flatten(pages)|)
    decreases |pages|
  {
    if |pages| == 0 {
      assert Flatten(pages) == [];
    } else {
      RunOutputIsRun(page, g, t, segments, pages[1..], labels, taken + |pages[0]|);
      FlattenCount(pages);
    }
  }

  /** A reference run stamps the numbers of the pages in page order, breaks
      each page once and draws the same marks on each. */
  lemma {:induction false} RunEventsNumbers(page: PageSize, g: Grid, t: Ticket, segments: seq<Segment>,
                                             pages: seq<seq<int>>, labels: seq<string>, taken: nat)
    ensures var es := RunEvents(page, g, t, segments, pages, labels, taken);
      && NumbersOf(es) == Flatten(pages)
      && PageBreaks(es) == |pages|
      && LineCount(es) == |pages| * |segments|
    decreases |pages|
  {
    if |pages| > 0 {
      var stamps := StampRun(page, g, t, pages[0], 0, labels, taken);
      var rest := RunEvents(page, g, t, segments, pages[1..], labels, taken + |pages[0]|);
      StampRunContents(page, g, t, pages[0], 0, labels, taken);
      PageEventsContents(segments, stamps);
      RunEventsNumbers(page, g, t, segments, pages[1..], labels, taken + |pages[0]|);
      ContentsConcat(PageEvents(segments, stamps), rest);
      assert |pages| * |segments| == |segments| + (|pages| - 1) * |segments|;
    }
  }

  /** A reference run hands out the labels in request order, one per stamp. */
  lemma {:induction false} RunEventsLabels(page: PageSize, g: Grid, t: Ticket, segments: seq<Segment>,
                                            pages: seq<seq<int>>, labels: seq<string>, taken: nat)
    ensures LabelsOf(RunEvents(page, g, t, segments, pages, labels, taken))
      == LabelRun(labels, taken, |Flatten(pages)|)
    decreases |pages|
  {
    if |pages| > 0 {
      var n := |pages[0]|;
      var flat := Flatten(pages[1..]);
      assert |Flatten(pages)| == n + |flat|;
      var stamps := StampRun(page, g, t, pages[0], 0, labels, taken);
      var rest := RunEvents(page, g, t, segments, pages[1..], labels, taken + n);
      StampRunContents(page, g, t, pages[0], 0, labels, taken);
      PageEventsContents(segments, stamps);
      RunEventsLabels(page, g, t, segments, pages[1..], labels, taken + n);
      ContentsConcat(PageEvents(segments, stamps), rest);
      LabelRunSplit(labels, taken, n, |flat|);
    }
  }

  /** Started on what `taken` requests left of `labels`, the whole run draws
      page after page the crop-mark lines, the stamps of that page and a page
      break: the reference run. */
  lemma PaintPagesEvents(
    l: PageLayout, segments: seq<Segment>, pages: seq<seq<int>>, labels: seq<string>, taken: nat)
    requires l.grid.Some? && l.pagesize.Some?
    ensures var r := PaintPages(l, Ok(segments), pages, Popped(labels, taken));
      r.Ok? && r.value.events == RunEvents(l.pagesize.value, l.grid.value, l.ticket, segments, pages, labels, taken)
  {
    PaintPagesIsRun(l, segments, pages, labels, taken);
    RunOutputIsRun(l.pagesize.value, l.grid.value, l.ticket, segments, pages, labels, taken);
  }

  /** The whole run stamps the numbers of the pages in page order, hands out
      labels in request order, breaks each page once and draws the same marks
      on each. */
  lemma PaintPagesContents(
    l: PageLayout, segments: seq<Segment>, pages: seq<seq<int>>, labels: seq<string>, taken: nat)
    requires l.grid.Some? && l.pagesize.Some?
    ensures var r := PaintPages(l, Ok(segments), pages, Popped(labels, taken));
      && r.Ok?
      && NumbersOf(r.value.events) == Flatten(pages)
      && LabelsOf(r.value.events) == LabelRun(labels, taken, |Flatten(pages)|)
      && PageBreaks(r.value.events) == |pages|
      && LineCount(r.value.events) == |pages| * |segments|
      && r.value.labels == Popped(labels, taken + |Flatten(pages)|)
  {
    PaintPagesIsRun(l, segments, pages, labels, taken);
    RunOutputIsRun(l.pagesize.value, l.grid.value, l.ticket, segments, pages, labels, taken);
    RunEventsNumbers(l.pagesize.value, l.grid.value, l.ticket, segments, pages, labels, taken);
    RunEventsLabels(l.pagesize.value, l.grid.value, l.ticket, segments, pages, labels, taken);
  }

  // ---------------------------------------------------------------------
  // generate

  /** `generate_numbers` on a layout whose page list is still empty. Without a
      grid the page count is `None` and `range` raises. */
  function GenerateNumbers(l: PageLayout, order: int, invert: bool, shuffled: seq<int>): (r: Result<seq<seq<int>>>)
    ensures l.grid.None? ==> r == Err(TypeError)
    ensures l.grid.Some? && r.Ok? ==> |r.value| == Clamp(l.grid.value.numpages)
  {
    match l.grid
    case None => Err(TypeError)
    case Some(g) =>
      NumberPages(g.numpages, g.ticketsPerPage, l.numtickets, l.numoffset, order, invert, shuffled)
  }

  /** `generate`: number the pages, then paint them. The result holds the
      events drawn and the labels left in the layout afterwards. */
  function Generate(l: PageLayout, order: int, cropmarks: bool, invert: bool, shuffled: seq<int>): (r: Result<Output>)
    ensures l.grid.None? ==> r == Err(TypeError)
    ensures GenerateNumbers(l, order, invert, shuffled).Err? ==> r == Err(GenerateNumbers(l, order, invert, shuffled).error)
    ensures l.pagesize.Some? && GenerateNumbers(l, order, invert, shuffled).Ok? ==> r.Ok?
    ensures l.grid.Some? && l.pagesize.None? && GenerateNumbers(l, order, invert, shuffled).Ok? ==>
      var pages := GenerateNumbers(l, order, invert, shuffled).value;
      var g := l.grid.value;
      (r.Err? <==> 0 < |pages| && ((cropmarks && (0 < g.colcount || 0 < g.rowcount)) || Flatten(pages) != []))
  {
    var pages :- GenerateNumbers(l, order, invert, shuffled);
    var marks := if cropmarks then PaintCropmarks(l) else Ok([]);
    PaintPages(l, marks, pages, l.labels)
  }

  /** Crop-mark lines `paint_cropmarks` draws on one page: four per column
      and four per row. */
  function MarksPerPage(g: Grid, cropmarks: bool): nat {
    if cropmarks then 4 * (Clamp(g.colcount) + Clamp(g.rowcount)) else 0
  }

  /** A consistent layout with room for a ticket has the page count
      `generate_numbers` needs to place every number. */
  lemma ConsistentSized(l: PageLayout)
    requires Consistent(l) && 0 < l.grid.value.ticketsPerPage
    ensures Sized(l.grid.value.numpages, l.grid.value.ticketsPerPage, l.numtickets)
  {
  }

  /** A run over a consistent layout, under any recognised order, stamps every
      number of the range exactly once, hands out the labels from the end of
      the list (then empty strings), breaks each of the numpages pages once
      and leaves the labels not handed out. */
  lemma GenerateStampsEveryNumber(l: PageLayout, order: int, cropmarks: bool, invert: bool, shuffled: seq<int>)
    requires Consistent(l) && 0 < l.grid.value.ticketsPerPage
    requires order in {STACKORDER, SEQUENTIALORDER, RANDOMORDER}
    requires order == RANDOMORDER ==> multiset(shuffled) == multiset(Range(l.numoffset, l.numtickets))
    ensures var r := Generate(l, order, cropmarks, invert, shuffled);
      var count := if l.numtickets < 0 then 0 else l.numtickets;
      && r.Ok?
      && multiset(NumbersOf(r.value.events)) == multiset(Range(l.numoffset, l.numtickets))
      && |NumbersOf(r.value.events)| == count
      && LabelsOf(r.value.events) == LabelRun(l.labels, 0, count)
      && PageBreaks(r.value.events) == Clamp(l.grid.value.numpages)
      && LineCount(r.value.events) == Clamp(l.grid.value.numpages) * MarksPerPage(l.grid.value, cropmarks)
      && r.value.labels == Popped(l.labels, count)
  {
    GenerateNumbersPermutation(l, order, invert, shuffled);
    var pages := GenerateNumbers(l, order, invert, shuffled).value;
    var segments := if cropmarks then PaintCropmarks(l).value else [];
    GenerateIs(l, order, cropmarks, invert, shuffled);
    assert (if cropmarks then PaintCropmarks(l) else Ok([])) == Ok(segments);
    assert |segments| == MarksPerPage(l.grid.value, cropmarks);
    PaintAllPages(l, segments, pages);
    var out := PaintPages(l, Ok(segments), pages, l.labels).value;
    assert Generate(l, order, cropmarks, invert, shuffled) == Ok(out);
    var flat := Flatten(pages);
    assert |flat| == |multiset(flat)| == |multiset(Range(l.numoffset, l.numtickets))|;
  }

  /** Once the pages are numbered, `generate` draws page after page the
      crop-mark lines (or none), the stamps of that page and a page break,
      stamping with the layout's own label list: the reference run. */
  lemma GenerateDrawsRun(l: PageLayout, order: int, cropmarks: bool, invert: bool, shuffled: seq<int>)
    requires l.grid.Some? && l.pagesize.Some?
    requires GenerateNumbers(l, order, invert, shuffled).Ok?
    ensures var r := Generate(l, order, cropmarks, invert, shuffled);
      var segments := if cropmarks then PaintCropmarks(l).value else [];
      r.Ok? && r.value.events == RunEvents(l.pagesize.value, l.grid.value, l.ticket, segments,
                                           GenerateNumbers(l, order, invert, shuffled).value, l.labels, 0)
  {
    var pages := GenerateNumbers(l, order, invert, shuffled).value;
    var segments := if cropmarks then PaintCropmarks(l).value else [];
    GenerateIs(l, order, cropmarks, invert, shuffled);
    assert (if cropmarks then PaintCropmarks(l) else Ok([])) == Ok(segments);
    PaintPagesFromStart(l, segments, pages);
    PaintPagesEvents(l, segments, pages, l.labels, 0);
  }

  /** The run painted from the layout's own label list, as `generate` paints it. */
  lemma PaintAllPages(l: PageLayout, segments: seq<Segment>, pages: seq<seq<int>>)
    requires l.grid.Some? && l.pagesize.Some?
    ensures var r := PaintPages(l, Ok(segments), pages, l.labels);
      && r.Ok?
      && NumbersOf(r.value.events) == Flatten(pages)
      && LabelsOf(r.value.events) == LabelRun(l.labels, 0, |Flatten(pages)|)
      && PageBreaks(r.value.events) == |pages|
      && LineCount(r.value.events) == |pages| * |segments|
      && r.value.labels == Popped(l.labels, |Flatten(pages)|)
  {
    assert Popped(l.labels, 0) == l.labels;
    PaintPagesContents(l, segments, pages, l.labels, 0);
  }

  /** A run over the whole label list is the run after no requests. */
  lemma PaintPagesFromStart(l: PageLayout, segments: seq<Segment>, pages: seq<seq<int>>)
    requires l.grid.Some?
    ensures PaintPages(l, Ok(segments), pages, l.labels) == PaintPages(l, Ok(segments), pages, Popped(l.labels, 0))
  {
    assert Popped(l.labels, 0) == l.labels;
  }

  /** Once the pages are numbered, `generate` paints them with the crop marks
      (or none) and the layout's labels. */
  lemma GenerateIs(l: PageLayout, order: int, cropmarks: bool, invert: bool, shuffled: seq<int>)
    requires l.grid.Some? && GenerateNumbers(l, order, invert, shuffled).Ok?
    ensures Generate(l, order, cropmarks, invert, shuffled)
      == PaintPages(l, if cropmarks then PaintCropmarks(l) else Ok([]),
                    GenerateNumbers(l, order, invert, shuffled).value, l.labels)
  {
  }

  /** On a consistent layout with room for a ticket, every recognised order
      numbers numpages pages with the whole range. */
  lemma GenerateNumbersPermutation(l: PageLayout, order: int, invert: bool, shuffled: seq<int>)
    requires Consistent(l) && 0 < l.grid.value.ticketsPerPage
    requires order in {STACKORDER, SEQUENTIALORDER, RANDOMORDER}
    requires order == RANDOMORDER ==> multiset(shuffled) == multiset(Range(l.numoffset, l.numtickets))
    ensures var r := GenerateNumbers(l, order, invert, shuffled);
      && r.Ok?
      && multiset(Flatten(r.value)) == multiset(Range(l.numoffset, l.numtickets))
      && |r.value| == Clamp(l.grid.value.numpages)
      && forall p :: 0 <= p < |r.value| ==> |r.value[p]| <= l.grid.value.ticketsPerPage
  {
    var g := l.grid.value;
    ConsistentSized(l);
    NumbersArePermutation(g.numpages, g.ticketsPerPage, l.numtickets, l.numoffset, order, invert, shuffled);
  }
}

=== FILE: failures.dfy ===
/** The exceptions the layout engine can raise, and a result type that
    carries either a value or the exception that ended the operation. */
module Failures {

  /** The Python exceptions the modelled code raises on its error paths. */
  datatype Error =
    | ZeroDivisionError   // a division by a zero ticket size or by zero tickets per page
    | IndexError          // a page index past the end of the page list
    | TypeError           // `range(0, None)` when the grid was never computed, or indexing a cleared page size
    | AttributeError      // `None.left` when no margins were ever recorded
    | ValueError          // an invalid format specification

  datatype Option<+T> = None | Some(value: T)

  datatype Result<+T> = Ok(value: T) | Err(error: Error) {

    predicate IsFailure() {
      Err?
    }

    function PropagateFailure<U>(): Result<U>
      requires Err?
    {
      Err(error)
    }

    function Extract(): T
      requires Ok?
    {
      value
    }
  }
}

=== FILE: labels.dfy ===
/** The label feed of a page layout (`PageLayout.get_label` in ticket.py):
    labels are taken from the end of the list, one per ticket, and the empty
    string is handed out once the list is used up. */
module Labels {

  /** `get_label`: the last label and the list without it, or the empty
      string and the (still empty) list when nothing is left. */
  function GetLabel(labels: seq<string>): (r: (string, seq<string>))
    ensures |labels| == 0 ==> r == ("", labels)
    ensures 0 < |labels| ==> r.1 + [r.0] == labels
  {
    if |labels| == 0 then ("", labels)
    else (labels[|labels| - 1], labels[..|labels| - 1])
  }

  /** The label the g-th request (counting from 0) receives: the list read
      from its end, then empty strings. */
  function LabelAt(labels: seq<string>, g: nat): string {
    if g < |labels| then labels[|labels| - 1 - g] else ""
  }

  /** What is left of the list after g requests. */
  function Popped(labels: seq<string>, g: nat): (r: seq<string>)
    ensures |r| == if g < |labels| then |labels| - g else 0
  {
    if g < |labels| then labels[..|labels| - g] else []
  }

  /** The labels handed out by n requests made after the first g. */
  function LabelRun(labels: seq<string>, g: nat, n: nat): (r: seq<string>)
    ensures |r| == n
    decreases n
  {
    if n == 0 then [] else [LabelAt(labels, g)] + LabelRun(labels, g + 1, n - 1)
  }

  /** Pushing a label and requesting one gives it back and restores the list:
      the feed is last in, first out. */
  lemma GetLabelAfterPush(labels: seq<string>, x: string)
    ensures GetLabel(labels + [x]) == (x, labels)
  {
    assert (labels + [x])[..|labels|] == labels;
  }

  /** The (g+1)-th request, made on what g requests left behind, receives
      LabelAt(labels, g) and leaves what g + 1 requests leave. */
  lemma GetLabelPopped(labels: seq<string>, g: nat)
    ensures GetLabel(Popped(labels, g)) == (LabelAt(labels, g), Popped(labels, g + 1))
  {
    if g < |labels| {
      var p := Popped(labels, g);
      assert p[|p| - 1] == labels[|labels| - 1 - g];
      assert p[..|p| - 1] == labels[..|labels| - g - 1];
    }
  }

  /** The labels handed out by a + b requests are those of the first a
      followed by those of the next b. */
  lemma {:induction false} LabelRunSplit(labels: seq<string>, g: nat, a: nat, b: nat)
    ensures LabelRun(labels, g, a + b) == LabelRun(labels, g, a) + LabelRun(labels, g + a, b)
    decreases a
  {
    if a > 0 {
      LabelRunSplit(labels, g + 1, a - 1, b);
      assert LabelRun(labels, g, a + b) == [LabelAt(labels, g)] + LabelRun(labels, g + 1, a - 1 + b);
    }
  }

  /** Element i of a run is the label of request g + i. */
  lemma {:induction false} LabelRunAt(labels: seq<string>, g: nat, n: nat, i: nat)
    requires i < n
    ensures LabelRun(labels, g, n)[i] == LabelAt(labels, g + i)
    decreases n
  {
    if i > 0 {
      LabelRunAt(labels, g + 1, n - 1, i - 1);
    }
  }

  /** Read in request order, a full run over the list is the list reversed,
      followed by empty strings. */
  lemma RunReversesList(labels: seq<string>, n: nat, i: nat)
    requires i < n
    ensures i < |labels| ==> LabelRun(labels, 0, n)[i] == labels[|labels| - 1 - i]
    ensures |labels| <= i ==> LabelRun(labels, 0, n)[i] == ""
  {
    LabelRunAt(labels, 0, n, i);
  }
}

=== FILE: layout.dfy ===
/** Grid sizing of a page layout: how many tickets fit across and down a
    page, how many pages the run needs, and the real margins that make the
    grid tile the page exactly (`PageLayout.set_margins` and
    `PageLayout.set_pagesize` in ticket.py). */
module Layout {
  import opened Failures
  import opened Arith

  /** Margins in the field order of the source's `Margins` named tuple. */
  datatype Margins = Margins(bottom: int, left: int, top: int, right: int)

  datatype PageSize = PageSize(width: int, height: int)

  /** Length of a crop mark and the width of its stroke. */
  datatype CropMarks = CropMarks(length: int, lineWidth: int)

  /** The size of the ticket template; its drawables are not modelled. */
  datatype Ticket = Ticket(width: int, height: int)

  /** Everything `set_margins` derives from the page and the requested margins. */
  datatype Grid = Grid(
    colcount: int,
    rowcount: int,
    ticketsPerPage: int,
    numpages: int,
    realmargins: Margins)

  /** The state of a `PageLayout` object. `minmargins` and `grid` stay `None`
      until margins are set against a known page size. */
  datatype PageLayout = PageLayout(
    ticket: Ticket,
    numtickets: int,
    numoffset: int,
    pagesize: Option<PageSize>,
    cropmarks: CropMarks,
    bleed: int,
    minmargins: Option<Margins>,
    grid: Option<Grid>,
    labels: seq<string>)

  /** Width left for tickets once crop marks and requested margins are taken off. */
  function UsableWidth(page: PageSize, crop: int, m: Margins): int {
    page.width - 2 * crop - m.left - m.right
  }

  function UsableHeight(page: PageSize, crop: int, m: Margins): int {
    page.height - 2 * crop - m.bottom - m.top
  }

  /** The grid arithmetic of `set_margins` once a page size is known. A zero
      ticket dimension or a layout with no room for a ticket raises the
      division error the source raises. */
  function ComputeGrid(page: PageSize, crop: int, ticket: Ticket, numtickets: int, m: Margins): (r: Result<Grid>)
    ensures r.Err? ==> r.error == ZeroDivisionError
    ensures ticket.width == 0 || ticket.height == 0 ==> r.Err?
    ensures ticket.width != 0 && ticket.height != 0 ==>
      (r.Err? <==> TruncDiv(UsableWidth(page, crop, m), ticket.width) == 0
                   || TruncDiv(UsableHeight(page, crop, m), ticket.height) == 0)
    ensures r.Ok? ==> GridFacts(r.value, page, crop, ticket, numtickets, m)
  {
    var w := ticket.width;
    var h := ticket.height;
    if w == 0 || h == 0 then Err(ZeroDivisionError)
    else
      var usableW := UsableWidth(page, crop, m);
      var usableH := UsableHeight(page, crop, m);
      var colcount := TruncDiv(usableW, w);
      var rowcount := TruncDiv(usableH, h);
      var perPage := colcount * rowcount;
      if perPage == 0 then Err(ZeroDivisionError)
      else
        var left := m.left + crop;
        var right := left + colcount * w;
        var top := m.top + crop;
        var bottom := top + rowcount * h;
        var g := Grid(colcount, rowcount, perPage, CeilDiv(numtickets, perPage),
                      Margins(page.height - bottom, left, top, page.width - right));
        GridFactsHold(g, page, crop, ticket, numtickets, m);
        Ok(g)
  }

  /** What a grid computed for these inputs promises: the counts are the
      truncated quotients `int(usable / size)`, which for room on the page are
      the most tickets that fit and for margins wider than the page are
      negative, rounded toward zero; the pages hold all tickets with less than one page to
      spare, the left and top margins absorb the crop mark, and the real
      margins plus the grid span the page exactly, leftover going right and
      down. */
  ghost predicate GridFacts(g: Grid, page: PageSize, crop: int, ticket: Ticket, numtickets: int, m: Margins) {
    var w := ticket.width;
    var h := ticket.height;
    var usableW := UsableWidth(page, crop, m);
    var usableH := UsableHeight(page, crop, m);
    && g.ticketsPerPage == g.colcount * g.rowcount
    && g.ticketsPerPage != 0
    && (0 < w && 0 <= usableW ==> g.colcount * w <= usableW < g.colcount * w + w)
    && (0 < h && 0 <= usableH ==> g.rowcount * h <= usableH < g.rowcount * h + h)
    && (0 < w && usableW < 0 ==> g.colcount * w - w < usableW <= g.colcount * w)
    && (0 < h && usableH < 0 ==> g.rowcount * h - h < usableH <= g.rowcount * h)
    && (w != 0 ==> g.colcount == TruncDiv(usableW, w))
    && (h != 0 ==> g.rowcount == TruncDiv(usableH, h))
    && g.numpages == CeilDiv(numtickets, g.ticketsPerPage)
    && (0 < g.ticketsPerPage && numtickets <= 0 ==> g.numpages <= 0)
    && (0 < g.ticketsPerPage && numtickets == 0 ==> g.numpages == 0)
    && (0 < g.ticketsPerPage && 0 < numtickets ==>
          0 < g.numpages
          && (g.numpages - 1) * g.ticketsPerPage < numtickets <= g.numpages * g.ticketsPerPage)
    && g.realmargins.left == m.left + crop
    && g.realmargins.top == m.top + crop
    && g.realmargins.left + g.colcount * w + g.realmargins.right == page.width
    && g.realmargins.top + g.rowcount * h + g.realmargins.bottom == page.height
    && (0 < w && 0 <= usableW ==> m.right + crop <= g.realmargins.right < m.right + crop + w)
    && (0 < h && 0 <= usableH ==> m.bottom + crop <= g.realmargins.bottom < m.bottom + crop + h)
  }

  lemma GridFactsHold(g: Grid, page: PageSize, crop: int, ticket: Ticket, numtickets: int, m: Margins)
    requires ticket.width != 0 && ticket.height != 0
    requires g.colcount == TruncDiv(UsableWidth(page, crop, m), ticket.width)
    requires g.rowcount == TruncDiv(UsableHeight(page, crop, m), ticket.height)
    requires g.ticketsPerPage == g.colcount * g.rowcount != 0
    requires g.numpages == CeilDiv(numtickets, g.ticketsPerPage)
    requires g.realmargins == Margins(
      page.height - (m.top + crop + g.rowcount * ticket.height),
      m.left + crop,
      m.top + crop,
      page.width - (m.left + crop + g.colcount * ticket.width))
    ensures GridFacts(g, page, crop, ticket, numtickets, m)
  {
    TruncDivBounds(UsableWidth(page, crop, m), ticket.width);
    TruncDivBounds(UsableHeight(page, crop, m), ticket.height);
    if 0 < g.ticketsPerPage {
      CeilDivBounds(numtickets, g.ticketsPerPage);
      CeilDivPositive(numtickets, g.ticketsPerPage);
    }
  }

  /** `set_margins`: without a page size nothing changes; otherwise the
      requested margins are recorded and the grid recomputed. */
  function SetMargins(l: PageLayout, m: Margins): (r: Result<PageLayout>)
    ensures l.pagesize.None? ==> r == Ok(l)
    ensures l.pagesize.Some? ==>
      (r.Err? <==> ComputeGrid(l.pagesize.value, l.cropmarks.length, l.ticket, l.numtickets, m).Err?)
    ensures r.Ok? && l.pagesize.Some? ==>
      && r.value.minmargins == Some(m)
      && r.value.grid.Some?
      && GridFacts(r.value.grid.value, l.pagesize.value, l.cropmarks.length, l.ticket, l.numtickets, m)
      && r.value == l.(minmargins := r.value.minmargins, grid := r.value.grid)
    ensures r.Ok? && l.pagesize.Some? ==> Consistent(r.value)
  {
    match l.pagesize
    case None => Ok(l)
    case Some(page) =>
      var g :- ComputeGrid(page, l.cropmarks.length, l.ticket, l.numtickets, m);
      Ok(l.(minmargins := Some(m), grid := Some(g)))
  }

  /** `set_pagesize`: store the page size and recompute against the margins
      recorded before. When no margins were ever recorded (the layout was
      built without a page size) the source dereferences `None`. */
  function SetPageSize(l: PageLayout, pagesize: Option<PageSize>): (r: Result<PageLayout>)
    ensures pagesize.None? ==> r == Ok(l.(pagesize := None))
    ensures pagesize.Some? && l.minmargins.None? ==> r == Err(AttributeError)
    ensures r.Ok? ==> r.value.pagesize == pagesize && r.value.minmargins == l.minmargins
    ensures r.Ok? && pagesize.Some? ==> Consistent(r.value)
    ensures r.Ok? ==> r.value == l.(pagesize := pagesize, grid := r.value.grid)
    ensures pagesize.Some? && l.minmargins.Some? ==>
      (r.Err? <==> ComputeGrid(pagesize.value, l.cropmarks.length, l.ticket, l.numtickets, l.minmargins.value).Err?)
  {
    var l' := l.(pagesize := pagesize);
    if pagesize.None? then Ok(l')
    else match l.minmargins
      case None => Err(AttributeError)
      case Some(m) => SetMargins(l', m)
  }

  /** `PageLayout.__init__`: the fields as given, then `set_margins`. Without
      a page size the layout has neither margins nor a grid; with one it
      records the margins and a grid consistent with them, or fails as the
      grid computation fails. */
  function NewLayout(
    ticket: Ticket, numtickets: int, numoffset: int, pagesize: Option<PageSize>,
    cropmarks: CropMarks, bleed: int, margins: Margins, labels: seq<string>): (r: Result<PageLayout>)
    ensures r.Ok? ==>
      && r.value.ticket == ticket && r.value.numtickets == numtickets && r.value.numoffset == numoffset
      && r.value.pagesize == pagesize && r.value.cropmarks == cropmarks && r.value.bleed == bleed
      && r.value.labels == labels
    ensures pagesize.None? ==> r.Ok? && r.value.minmargins.None? && r.value.grid.None?
    ensures pagesize.Some? ==>
      (r.Err? <==> ComputeGrid(pagesize.value, cropmarks.length, ticket, numtickets, margins).Err?)
    ensures pagesize.Some? && r.Ok? ==> r.value.minmargins == Some(margins) && Consistent(r.value)
  {
    SetMargins(PageLayout(ticket, numtickets, numoffset, pagesize, cropmarks, bleed, None, None, labels), margins)
  }

  /** A layout whose grid is exactly what `set_margins` computes from its own
      page size, crop mark, ticket, ticket count and requested margins. */
  ghost predicate Consistent(l: PageLayout) {
    && l.pagesize.Some?
    && l.minmargins.Some?
    && l.grid.Some?
    && ComputeGrid(l.pagesize.value, l.cropmarks.length, l.ticket, l.numtickets, l.minmargins.value)
       == Ok(l.grid.value)
  }

  /** Every layout built with a page size has a consistent grid, and setting
      the page size it already has reproduces it: recomputation is pure. */
  lemma NewLayoutConsistent(
    ticket: Ticket, numtickets: int, numoffset: int, pagesize: Option<PageSize>,
    cropmarks: CropMarks, bleed: int, margins: Margins, labels: seq<string>)
    requires pagesize.Some?
    requires NewLayout(ticket, numtickets, numoffset, pagesize, cropmarks, bleed, margins, labels).Ok?
    ensures var l := NewLayout(ticket, numtickets, numoffset, pagesize, cropmarks, bleed, margins, labels).value;
      Consistent(l) && SetPageSize(l, pagesize) == Ok(l)
  {
  }

  /** Changing the page size of a layout gives the layout that would have
      been built with that page size from the start. */
  lemma SetPageSizeRebuilds(
    ticket: Ticket, numtickets: int, numoffset: int, pagesize: Option<PageSize>,
    cropmarks: CropMarks, bleed: int, margins: Margins, labels: seq<string>, newsize: PageSize)
    requires pagesize.Some?
    requires NewLayout(ticket, numtickets, numoffset, pagesize, cropmarks, bleed, margins, labels).Ok?
    ensures var l := NewLayout(ticket, numtickets, numoffset, pagesize, cropmarks, bleed, margins, labels).value;
      SetPageSize(l, Some(newsize))
      == NewLayout(ticket, numtickets, numoffset, Some(newsize), cropmarks, bleed, margins, labels)
  {
  }

  /** A layout built without a page size never records its margins, so giving
      it a page size afterwards fails instead of computing a grid. */
  lemma NoPageSizeThenSetPageSize(
    ticket: Ticket, numtickets: int, numoffset: int,
    cropmarks: CropMarks, bleed: int, margins: Margins, labels: seq<string>, newsize: PageSize)
    ensures var r := NewLayout(ticket, numtickets, numoffset, None, cropmarks, bleed, margins, labels);
      r.Ok? && r.value.grid.None? && SetPageSize(r.value, Some(newsize)) == Err(AttributeError)
  {
  }
}

=== FILE: numberformat.dfy ===
/** `format_number` in ticket.py: a ticket number written in decimal,
    zero-padded to a minimum width, as the format specification `0<digits>d`
    renders it. */
module NumberFormat {
  import opened Failures

  predicate IsDigit(c: char) {
    '0' <= c <= '9'
  }

  function DigitChar(d: int): (c: char)
    requires 0 <= d < 10
    ensures IsDigit(c) && c as int - '0' as int == d
  {
    ('0' as int + d) as char
  }

  /** The decimal numeral of n, without leading zeros. */
  function Decimal(n: nat): (r: string)
    ensures 0 < |r|
    ensures forall i :: 0 <= i < |r| ==> IsDigit(r[i])
    ensures r[0] == '0' ==> n == 0
  {
    if n < 10 then [DigitChar(n)]
    else Decimal(n / 10) + [DigitChar(n % 10)]
  }

  function Zeros(k: int): (r: string)
    ensures |r| == if k < 0 then 0 else k
    ensures forall i :: 0 <= i < |r| ==> r[i] == '0'
    decreases k
  {
    if k <= 0 then [] else Zeros(k - 1) + ['0']
  }

  /** `"{0:0" + str(digits) + "d}".format(number)`. A negative width puts a
      minus sign where the specification expects the width, which Python
      rejects; otherwise the sign comes first and zeros fill the space between
      it and the digits up to the requested width. */
  function FormatNumber(digits: int, number: int): (r: Result<string>)
    ensures r.Err? <==> digits < 0
    ensures r.Err? ==> r.error == ValueError
    ensures r.Ok? ==> 0 < |r.value| && (r.value[0] == '-' <==> number < 0)
    ensures r.Ok? ==> forall i :: (if number < 0 then 1 else 0) <= i < |r.value| ==> IsDigit(r.value[i])
  {
    if digits < 0 then Err(ValueError)
    else
      var sign := if number < 0 then "-" else "";
      var body := Decimal(if number < 0 then -number else number);
      Ok(sign + Zeros(digits - |sign| - |body|) + body)
  }

  /** The characters a numeral of this number takes without padding. */
  function Width(number: int): nat {
    if number < 0 then 1 + |Decimal(-number)| else |Decimal(number)|
  }

  /** The value of a string of decimal digits. */
  function ParseDecimal(s: string): int
    requires forall i :: 0 <= i < |s| ==> IsDigit(s[i])
  {
    if |s| == 0 then 0
    else ParseDecimal(s[..|s| - 1]) * 10 + (s[|s| - 1] as int - '0' as int)
  }

  /** The value of a numeral with an optional leading minus sign. */
  function ParseNumber(s: string): int
    requires 0 < |s|
    requires forall i :: (if s[0] == '-' then 1 else 0) <= i < |s| ==> IsDigit(s[i])
  {
    if s[0] == '-' then -ParseDecimal(s[1..]) else ParseDecimal(s)
  }

  lemma {:induction false} ParseDecimalOfDecimal(n: nat)
    ensures ParseDecimal(Decimal(n)) == n
  {
    if n >= 10 {
      var d := Decimal(n / 10);
      var s := d + [DigitChar(n % 10)];
      assert s[..|s| - 1] == d;
      ParseDecimalOfDecimal(n / 10);
    }
  }

  lemma {:induction false} ParseDecimalOfZeros(k: int)
    ensures ParseDecimal(Zeros(k)) == 0
    decreases k
  {
    if k > 0 {
      assert Zeros(k)[..|Zeros(k)| - 1] == Zeros(k - 1);
      ParseDecimalOfZeros(k - 1);
    }
  }

  /** Leading zeros do not change the value of a numeral. */
  lemma {:induction false} ParseDecimalPadded(k: int, s: string)
    requires forall i :: 0 <= i < |s| ==> IsDigit(s[i])
    ensures ParseDecimal(Zeros(k) + s) == ParseDecimal(s)
    decreases |s|
  {
    var z := Zeros(k);
    if |s| == 0 {
      assert z + s == z;
      ParseDecimalOfZeros(k);
    } else {
      var t := s[..|s| - 1];
      assert (z + s)[..|z + s| - 1] == z + t;
      ParseDecimalPadded(k, t);
    }
  }

  /** Reading a formatted number back gives the number: padding loses nothing. */
  lemma FormatNumberParses(digits: int, number: int)
    requires 0 <= digits
    ensures ParseNumber(FormatNumber(digits, number).value) == number
  {
    if number < 0 {
      FormatNegativeParses(digits, number);
    } else {
      var body := Decimal(number);
      var k := digits - |body|;
      assert FormatNumber(digits, number).value == Zeros(k) + body;
      ParseDecimalPadded(k, body);
      ParseDecimalOfDecimal(number);
    }
  }

  lemma FormatNegativeParses(digits: int, number: int)
    requires 0 <= digits && number < 0
    ensures ParseNumber(FormatNumber(digits, number).value) == number
  {
    var body := Decimal(-number);
    var k := digits - 1 - |body|;
    var s := FormatNumber(digits, number).value;
    assert s == "-" + Zeros(k) + body;
    assert s[1..] == Zeros(k) + body;
    ParseDecimalPadded(k, body);
    ParseDecimalOfDecimal(-number);
  }

  /** The result is exactly as wide as requested, or as wide as the plain
      numeral when that is wider; in the latter case it is the plain numeral. */
  lemma FormatNumberWidth(digits: int, number: int)
    requires 0 <= digits
    ensures |FormatNumber(digits, number).value| == if digits < Width(number) then Width(number) else digits
    ensures digits <= Width(number) ==> FormatNumber(digits, number) == FormatNumber(0, number)
  {
  }
}

=== FILE: numbering.dfy ===
/** Distribution of ticket numbers over pages (`PageLayout.generate_numbers`
    in ticket.py). The loops of the source are modelled step by step
    (`Fill`, `Deal`); `Chunks` and `Dealt` are independent closed-form
    descriptions of their results, and the lemmas connect the two. */
module Numbering {
  import opened Failures
  import opened Arith
  import opened Seqs

  const STACKORDER := 1
  const SEQUENTIALORDER := 2
  const RANDOMORDER := 4

  /** The page list being built and the index of the page being filled. */
  datatype Filling = Filling(pages: seq<seq<int>>, current: nat)

  /** `range(start, start + count)`. */
  function Range(start: int, count: int): (r: seq<int>)
    ensures |r| == if count < 0 then 0 else count
    ensures forall i :: 0 <= i < |r| ==> r[i] == start + i
    decreases count
  {
    if count <= 0 then [] else Range(start, count - 1) + [start + count - 1]
  }

  /** One pass of the loop body the sequential and random orders share:
      append to the current page while it has room, otherwise move to the
      next page. Indexing past the page list raises. */
  function FillStep(s: Filling, perPage: int, x: int): (r: Result<Filling>)
    ensures r.Err? ==> r.error == IndexError
    ensures r.Err? <==> s.current >= |s.pages| || (perPage <= |s.pages[s.current]| && |s.pages| <= s.current + 1)
    ensures r.Ok? ==>
      && s.current <= r.value.current <= s.current + 1
      && r.value.current < |s.pages|
      && r.value.pages == AppendAt(s.pages, r.value.current, x)
    ensures r.Ok? ==> (r.value.current == s.current <==> |s.pages[s.current]| < perPage)
  {
    if s.current >= |s.pages| then Err(IndexError)
    else if |s.pages[s.current]| < perPage then
      Ok(Filling(AppendAt(s.pages, s.current, x), s.current))
    else if s.current + 1 < |s.pages| then
      Ok(Filling(AppendAt(s.pages, s.current + 1, x), s.current + 1))
    else Err(IndexError)
  }

  /** The sequential / random loop run over `xs` in order, from page 0. */
  function Fill(pages: seq<seq<int>>, perPage: int, xs: seq<int>): (r: Result<Filling>)
    ensures r.Ok? ==> |r.value.pages| == |pages|
    ensures r.Err? ==> r.error == IndexError
    decreases |xs|
  {
    if |xs| == 0 then Ok(Filling(pages, 0))
    else
      match Fill(pages, perPage, xs[..|xs| - 1])
      case Err(e) => Err(e)
      case Ok(s) => FillStep(s, perPage, xs[|xs| - 1])
  }

  /** One pass of the stack-order loop body: append to the current page, then
      move to the next page, wrapping to page 0 after the last. */
  function DealStep(s: Filling, numpages: int, x: int): (r: Result<Filling>)
    ensures r.Err? <==> s.current >= |s.pages|
    ensures r.Err? ==> r.error == IndexError
    ensures r.Ok? ==> r.value.pages == AppendAt(s.pages, s.current, x)
    ensures r.Ok? ==> r.value.current == 0 || r.value.current == s.current + 1 < numpages
    ensures r.Ok? ==> (r.value.current == s.current + 1 <==> s.current < numpages - 1)
  {
    if s.current >= |s.pages| then Err(IndexError)
    else Ok(Filling(AppendAt(s.pages, s.current, x),
                    if s.current < numpages - 1 then s.current + 1 else 0))
  }

  /** The stack-order loop run over `xs` in order, from page 0. */
  function Deal(pages: seq<seq<int>>, numpages: int, xs: seq<int>): (r: Result<Filling>)
    ensures r.Ok? ==> |r.value.pages| == |pages|
    ensures r.Err? ==> r.error == IndexError
    decreases |xs|
  {
    if |xs| == 0 then Ok(Filling(pages, 0))
    else
      match Deal(pages, numpages, xs[..|xs| - 1])
      case Err(e) => Err(e)
      case Ok(s) => DealStep(s, numpages, xs[|xs| - 1])
  }

  /** The page list a loop leaves behind, or the exception it raised. */
  function PagesOf(r: Result<Filling>): Result<seq<seq<int>>> {
    match r
    case Err(e) => Err(e)
    case Ok(s) => Ok(s.pages)
  }

  /** The page list `generate_numbers` builds before any inversion. `shuffled`
      is the list of numbers after `shuffle`; the random order pops it from
      the end. An order the source does not recognise leaves every page empty. */
  function Numbered(
    numpages: int, perPage: int, numtickets: int, numoffset: int,
    order: int, shuffled: seq<int>): (r: Result<seq<seq<int>>>)
    ensures r.Ok? ==> |r.value| == |Empties<int>(numpages)|
  {
    var start := Empties(numpages);
    if order == SEQUENTIALORDER then PagesOf(Fill(start, perPage, Range(numoffset, numtickets)))
    else if order == RANDOMORDER then PagesOf(Fill(start, perPage, Reverse(shuffled)))
    else if order == STACKORDER then PagesOf(Deal(start, numpages, Range(numoffset, numtickets)))
    else Ok(start)
  }

  /** `generate_numbers` called once on an empty page list: number the pages,
      then reverse their order when `invert` is set. */
  function NumberPages(
    numpages: int, perPage: int, numtickets: int, numoffset: int,
    order: int, invert: bool, shuffled: seq<int>): (r: Result<seq<seq<int>>>)
    ensures r.Ok? ==> |r.value| == if numpages < 0 then 0 else numpages
    ensures order !in {STACKORDER, SEQUENTIALORDER, RANDOMORDER} ==>
      r.Ok? && forall p :: 0 <= p < |r.value| ==> r.value[p] == []
  {
    match Numbered(numpages, perPage, numtickets, numoffset, order, shuffled)
    case Err(e) => Err(e)
    case Ok(pages) => Ok(if invert then Reverse(pages) else pages)
  }

  // ---------------------------------------------------------------------
  // Sequential blocks

  /** `xs` cut into consecutive blocks of `size`, the last one possibly short. */
  function Chunks(xs: seq<int>, size: int): (r: seq<seq<int>>)
    requires 0 < size
    ensures |r| == 0 <==> |xs| == 0
    ensures forall p :: 0 <= p < |r| ==> 0 < |r[p]| <= size
    ensures forall p :: 0 <= p < |r| - 1 ==> |r[p]| == size
    decreases |xs|
  {
    if |xs| == 0 then []
    else if |xs| <= size then [xs]
    else
      var rest := Chunks(xs[size..], size);
      assert ([xs[..size]] + rest)[1..] == rest;
      [xs[..size]] + rest
  }

  /** Read in order, the blocks give back the input. */
  lemma {:induction false} ChunksFlatten(xs: seq<int>, size: int)
    requires 0 < size
    ensures Flatten(Chunks(xs, size)) == xs
    decreases |xs|
  {
    if |xs| == 0 {
    } else if |xs| <= size {
      assert Flatten([xs]) == xs + Flatten<int>([]);
    } else {
      ChunksFlatten(xs[size..], size);
      ChunksCons(xs, size);
      var c := Chunks(xs, size);
      assert c[1..] == Chunks(xs[size..], size);
      assert xs == xs[..size] + xs[size..];
    }
  }

  /** There are ceil(|xs| / size) blocks. */
  lemma {:induction false} ChunksCount(xs: seq<int>, size: int)
    requires 0 < size
    ensures |Chunks(xs, size)| == CeilDiv(|xs|, size)
    decreases |xs|
  {
    CeilDivPositive(|xs|, size);
    if |xs| == 0 {
    } else if |xs| <= size {
      DivUnique(|xs| + size - 1, size, 1);
    } else {
      ChunksCount(xs[size..], size);
      ChunksCons(xs, size);
      CeilDivStep(|xs| - size, size);
    }
  }

  /** Appending one number to the input either extends the last block or,
      when the last block is full, opens a new one. */
  lemma {:induction false} ChunksSnoc(ys: seq<int>, x: int, size: int)
    requires 0 < size && 0 < |ys|
    ensures var c := Chunks(ys, size);
      && 0 < |c|
      && (|c[|c| - 1]| < size ==> Chunks(ys + [x], size) == c[..|c| - 1] + [c[|c| - 1] + [x]])
      && (|c[|c| - 1]| == size ==> Chunks(ys + [x], size) == c + [[x]])
    decreases |ys|
  {
    var zs := ys + [x];
    if |ys| < size {
      assert Chunks(ys, size) == [ys];
      assert Chunks(zs, size) == [zs];
    } else if |ys| == size {
      assert Chunks(ys, size) == [ys];
      assert zs[..size] == ys;
      assert zs[size..] == [x];
      assert Chunks([x], size) == [[x]];
      assert Chunks(zs, size) == [ys] + Chunks([x], size);
    } else {
      var rest := ys[size..];
      assert zs[..size] == ys[..size];
      assert zs[size..] == rest + [x];
      ChunksSnoc(rest, x, size);
      var c' := Chunks(rest, size);
      var c := Chunks(ys, size);
      assert c == [ys[..size]] + c';
      assert Chunks(zs, size) == [ys[..size]] + Chunks(rest + [x], size);
      assert c[|c| - 1] == c'[|c'| - 1];
      assert c[..|c| - 1] == [ys[..size]] + c'[..|c'| - 1];
    }
  }

  /** The k-th number of the input lands on page k div size, position k mod size. */
  lemma {:induction false} ChunksPlace(xs: seq<int>, size: int, k: int)
    requires 0 < size && 0 <= k < |xs|
    ensures PlacedInChunk(xs, size, k)
    decreases |xs|
  {
    if k < size {
      DivUnique(k, size, 0);
      assert Chunks(xs, size)[0] == if |xs| <= size then xs else xs[..size];
    } else {
      ChunksPlace(xs[size..], size, k - size);
      ChunksPlaceStep(xs, size, k);
    }
  }

  /** The k-th number of the input is on page k div size, at position k mod size. */
  ghost predicate PlacedInChunk(xs: seq<int>, size: int, k: int)
    requires 0 < size && 0 <= k < |xs|
  {
    var c := Chunks(xs, size);
    && k / size < |c|
    && k % size < |c[k / size]|
    && c[k / size][k % size] == xs[k]
  }

  lemma ChunksPlaceStep(xs: seq<int>, size: int, k: int)
    requires 0 < size <= k < |xs|
    requires PlacedInChunk(xs[size..], size, k - size)
    ensures PlacedInChunk(xs, size, k)
  {
    var rest := xs[size..];
    var c := Chunks(xs, size);
    var c' := Chunks(rest, size);
    var q := (k - size) / size;
    var r := (k - size) % size;
    DivShift(k, size);
    assert k / size == q + 1 && k % size == r;
    ChunksCons(xs, size);
    assert c[q + 1] == c'[q];
    assert c'[q][r] == rest[k - size] == xs[k];
  }

  /** Past the first block, the blocks are those of the rest of the input. */
  lemma ChunksCons(xs: seq<int>, size: int)
    requires 0 < size < |xs|
    ensures Chunks(xs, size) == [xs[..size]] + Chunks(xs[size..], size)
  {
  }

  // ---------------------------------------------------------------------
  // Stack order

  /** Every m-th element of `xs`, starting at index p. */
  function Stride(xs: seq<int>, p: int, m: int): seq<int>
    requires 0 <= p && 0 < m
    decreases |xs| - p
  {
    if p >= |xs| then [] else [xs[p]] + Stride(xs, p + m, m)
  }

  /** Round-robin over m pages: page p holds elements p, p + m, p + 2m, ... */
  function Dealt(xs: seq<int>, m: int): (r: seq<seq<int>>)
    requires 0 < m
    ensures |r| == m
  {
    seq(m, p requires 0 <= p => Stride(xs, p, m))
  }

  /** Position j of page p holds element p + j*m, and the page is exactly as
      long as the indices of that form inside `xs`. */
  lemma {:induction false} StrideIndex(xs: seq<int>, p: int, m: int, j: int)
    requires 0 <= p && 0 < m && 0 <= j
    ensures j < |Stride(xs, p, m)| <==> p + j * m < |xs|
    ensures j < |Stride(xs, p, m)| ==> Stride(xs, p, m)[j] == xs[p + j * m]
    decreases |xs| - p
  {
    if p < |xs| && j > 0 {
      StrideIndex(xs, p + m, m, j - 1);
      assert p + m + (j - 1) * m == p + j * m;
    } else if p >= |xs| && j > 0 {
      MulMono(0, j, m);
    }
  }

  lemma {:induction false} StrideSnoc(ys: seq<int>, x: int, p: int, m: int)
    requires 0 <= p && 0 < m
    ensures StridesSnoc(ys, x, p, m)
    decreases |ys| - p
  {
    if p == |ys| {
      assert Stride(ys + [x], p, m) == [x] + Stride(ys + [x], p + m, m);
      assert Stride(ys, p, m) == [];
    } else if p < |ys| {
      StrideSnoc(ys, x, p + m, m);
      StrideSnocStep(ys, x, p, m);
    }
  }

  /** Appending x to ys appends it to the stride from p exactly when x's
      index |ys| is reached from p in steps of m. */
  ghost predicate StridesSnoc(ys: seq<int>, x: int, p: int, m: int)
    requires 0 <= p && 0 < m
  {
    Stride(ys + [x], p, m) ==
      if p <= |ys| && (|ys| - p) % m == 0 then Stride(ys, p, m) + [x] else Stride(ys, p, m)
  }

  lemma StrideSnocStep(ys: seq<int>, x: int, p: int, m: int)
    requires 0 <= p < |ys| && 0 < m
    requires StridesSnoc(ys, x, p + m, m)
    ensures StridesSnoc(ys, x, p, m)
  {
    var zs := ys + [x];
    StrideTurn(|ys|, p, m);
    var tail := Stride(ys, p + m, m);
    assert Stride(zs, p, m) == [ys[p]] + Stride(zs, p + m, m);
    assert Stride(ys, p, m) == [ys[p]] + tail;
    if (|ys| - p) % m == 0 {
      assert [ys[p]] + (tail + [x]) == ([ys[p]] + tail) + [x];
    }
  }

  /** Index n is reached by stepping m from p exactly when it is reached by
      stepping m from p + m, for p below n. */
  lemma StrideTurn(n: int, p: int, m: int)
    requires 0 < m && p < n
    ensures (n - p) % m == 0 <==> p + m <= n && (n - (p + m)) % m == 0
  {
    if p + m <= n {
      DivShift(n - p, m);
      assert n - p - m == n - (p + m);
    } else {
      DivUnique(n - p, m, 0);
    }
  }

  /** The k-th number of the input lands on page k mod m, position k div m. */
  lemma DealtPlace(xs: seq<int>, m: int, k: int)
    requires 0 < m && 0 <= k < |xs|
    ensures k / m < |Dealt(xs, m)[k % m]|
    ensures Dealt(xs, m)[k % m][k / m] == xs[k]
  {
    var p := k % m;
    var j := k / m;
    DivBelow(k, m);
    assert p + j * m == k;
    StrideIndex(xs, p, m, j);
    assert Dealt(xs, m)[p] == Stride(xs, p, m);
  }

  /** Every round-robin page holds at most ceil(|xs| / m) numbers. */
  lemma DealtCapacity(xs: seq<int>, m: int, p: int)
    requires 0 < m && 0 <= p < m
    ensures |Dealt(xs, m)[p]| <= CeilDiv(|xs|, m)
  {
    var len := |Stride(xs, p, m)|;
    CeilDivPositive(|xs|, m);
    if len > 0 {
      StrideIndex(xs, p, m, len - 1);
      StepsBelow(|xs|, p, m, len);
    }
  }

  /** Indices p, p + m, ..., p + (len - 1) m all below n number at most
      ceil(n / m). */
  lemma StepsBelow(n: int, p: int, m: int, len: int)
    requires 0 < m && 0 <= p && 0 < len && p + (len - 1) * m < n
    ensures len <= (n + m - 1) / m
  {
    var q := (n + m - 1) / m;
    DivBelow(n + m - 1, m);
    if len > q {
      MulMono(q, len - 1, m);
    }
  }

  // ---------------------------------------------------------------------
  // The loops compute the closed forms

  /** Where the fill loop stands once it has numbered `xs`: the blocks of `xs`
      followed by the pages still empty, the last block being filled. */
  function ChunkState(xs: seq<int>, size: int, numpages: int): Filling
    requires 0 < size
  {
    var c := Chunks(xs, size);
    Filling(c + Empties(numpages - |c|), if |c| == 0 then 0 else |c| - 1)
  }

  /** One pass of the fill loop moves from the blocks of `ys` to the blocks
      of `ys + [x]`, provided the page list has room for them. */
  lemma FillStepChunks(ys: seq<int>, x: int, size: int, numpages: int)
    requires 0 < size && CeilDiv(|ys| + 1, size) <= numpages
    ensures FillStep(ChunkState(ys, size, numpages), size, x) == Ok(ChunkState(ys + [x], size, numpages))
  {
    if |ys| == 0 {
      assert ys == [] && ys + [x] == [x];
      FillFirstStep(x, size, numpages);
    } else {
      ChunksSnoc(ys, x, size);
      var c := Chunks(ys, size);
      if |c[|c| - 1]| < size {
        FillExtendStep(ys, x, size, numpages);
      } else {
        FillOpenStep(ys, x, size, numpages);
      }
    }
  }

  lemma FillFirstStep(x: int, size: int, numpages: int)
    requires 0 < size && CeilDiv(1, size) <= numpages
    ensures FillStep(ChunkState([], size, numpages), size, x) == Ok(ChunkState([x], size, numpages))
  {
    CeilDivPositive(1, size);
    DivUnique(size, size, 1);
    assert Chunks([], size) == [];
    assert Chunks([x], size) == [[x]];
    var e: seq<seq<int>> := [];
    AppendToFirstEmpty<int>(e, numpages, x);
    assert e + Empties<int>(numpages) == Empties(numpages);
    assert e + [[x]] + Empties<int>(numpages - 1) == [[x]] + Empties<int>(numpages - 1);
    var s := ChunkState([], size, numpages);
    assert s.pages == Empties(numpages) && s.current == 0;
    assert |s.pages[0]| == 0;
  }

  lemma FillExtendStep(ys: seq<int>, x: int, size: int, numpages: int)
    requires 0 < size && 0 < |ys| && CeilDiv(|ys| + 1, size) <= numpages
    requires var c := Chunks(ys, size); |c[|c| - 1]| < size
    ensures FillStep(ChunkState(ys, size, numpages), size, x) == Ok(ChunkState(ys + [x], size, numpages))
  {
    ChunksSnoc(ys, x, size);
    var c := Chunks(ys, size);
    var c2 := Chunks(ys + [x], size);
    var n := |c|;
    var rest := Empties(numpages - n);
    assert c2 == c[..n - 1] + [c[n - 1] + [x]];
    assert (c + rest)[n - 1] == c[n - 1];
    AppendAtConcat(c, rest, n - 1, x);
    assert AppendAt(c, n - 1, x) == c2;
  }

  lemma FillOpenStep(ys: seq<int>, x: int, size: int, numpages: int)
    requires 0 < size && 0 < |ys| && CeilDiv(|ys| + 1, size) <= numpages
    requires var c := Chunks(ys, size); |c[|c| - 1]| == size
    ensures FillStep(ChunkState(ys, size, numpages), size, x) == Ok(ChunkState(ys + [x], size, numpages))
  {
    ChunksSnoc(ys, x, size);
    var c := Chunks(ys, size);
    var c2 := Chunks(ys + [x], size);
    var n := |c|;
    assert c2 == c + [[x]];
    ChunksCount(ys + [x], size);
    assert n + 1 <= numpages;
    assert (c + Empties(numpages - n))[n - 1] == c[n - 1];
    AppendToFirstEmpty(c, numpages, x);
  }

  /** Filling pages in order from an empty page list that has room for every
      block yields the blocks, followed by the pages still empty. */
  lemma {:induction false} FillIsChunks(xs: seq<int>, size: int, numpages: int)
    requires 0 < size && CeilDiv(|xs|, size) <= numpages
    ensures Fill(Empties(numpages), size, xs) == Ok(ChunkState(xs, size, numpages))
    decreases |xs|
  {
    if |xs| == 0 {
      assert Chunks(xs, size) == [];
      assert ChunkState(xs, size, numpages).pages == Empties(numpages);
    } else {
      var ys := xs[..|xs| - 1];
      var x := xs[|xs| - 1];
      assert xs == ys + [x];
      CeilDivPositive(|ys|, size);
      CeilDivPositive(|xs|, size);
      DivMono(|ys| + size - 1, |xs| + size - 1, size);
      FillIsChunks(ys, size, numpages);
      FillStepChunks(ys, x, size, numpages);
    }
  }

  /** Dealing round-robin over m pages yields the strided pages, with the
      current page index at the count dealt so far, mod m. */
  lemma {:induction false} DealIsDealt(xs: seq<int>, m: int)
    requires 0 < m
    ensures Deal(Empties(m), m, xs) == Ok(Filling(Dealt(xs, m), |xs| % m))
    decreases |xs|
  {
    if |xs| == 0 {
      assert Dealt(xs, m) == Empties(m);
    } else {
      var ys := xs[..|xs| - 1];
      var x := xs[|xs| - 1];
      assert xs == ys + [x];
      DealIsDealt(ys, m);
      DealStepDealt(ys, x, m);
    }
  }

  /** One pass of the stack loop appends the next number to page |ys| mod m
      and moves on to the page after it, wrapping around. */
  lemma DealStepDealt(ys: seq<int>, x: int, m: int)
    requires 0 < m
    ensures DealStep(Filling(Dealt(ys, m), |ys| % m), m, x) == Ok(Filling(Dealt(ys + [x], m), (|ys| + 1) % m))
  {
    DealtSnoc(ys, x, m);
    NextPage(|ys|, m);
  }

  lemma DealtSnoc(ys: seq<int>, x: int, m: int)
    requires 0 < m
    ensures 0 <= |ys| % m < m
    ensures AppendAt(Dealt(ys, m), |ys| % m, x) == Dealt(ys + [x], m)
  {
    forall p | 0 <= p < m
      ensures AppendAt(Dealt(ys, m), |ys| % m, x)[p] == Dealt(ys + [x], m)[p]
    {
      DealtSnocPage(ys, x, m, p);
    }
  }

  /** Page p of the round robin gains x exactly when x's index is dealt to it. */
  lemma DealtSnocPage(ys: seq<int>, x: int, m: int, p: int)
    requires 0 < m && 0 <= p < m
    ensures AppendAt(Dealt(ys, m), |ys| % m, x)[p] == Dealt(ys + [x], m)[p]
  {
    StrideSnoc(ys, x, p, m);
    OnPage(|ys|, p, m);
    assert Dealt(ys, m)[p] == Stride(ys, p, m);
    assert Dealt(ys + [x], m)[p] == Stride(ys + [x], p, m);
  }

  /** The stack loop's page index after n numbers, advanced once, is the
      index after n + 1 numbers. */
  lemma NextPage(n: nat, m: int)
    requires 0 < m
    ensures (if n % m < m - 1 then n % m + 1 else 0) == (n + 1) % m
  {
    DivModNext(n, m);
  }

  /** Element n is dealt to page p exactly when p == n mod m. */
  lemma OnPage(n: nat, p: int, m: int)
    requires 0 < m && 0 <= p < m
    ensures (p <= n && (n - p) % m == 0) <==> p == n % m
  {
    if p <= n && (n - p) % m == 0 {
      ReachedPage(n, p, m);
    }
    if p == n % m {
      PageReaches(n, m);
    }
  }

  lemma ReachedPage(n: int, p: int, m: int)
    requires 0 < m && 0 <= p < m && p <= n && (n - p) % m == 0
    ensures p == n % m
  {
    var q := (n - p) / m;
    DivBelow(n - p, m);
    DivUnique(n, m, q);
  }

  lemma PageReaches(n: nat, m: int)
    requires 0 < m
    ensures n % m <= n && (n - n % m) % m == 0
  {
    DivBelow(n, m);
    DivUnique(n - n % m, m, n / m);
  }

  // ---------------------------------------------------------------------
  // Conservation of numbers

  lemma FillStepConserves(s: Filling, perPage: int, x: int)
    ensures FillStep(s, perPage, x).Ok? ==>
      multiset(Flatten(FillStep(s, perPage, x).value.pages)) == multiset(Flatten(s.pages)) + multiset{x}
  {
    if s.current < |s.pages| {
      if |s.pages[s.current]| < perPage {
        assert FillStep(s, perPage, x) == Ok(Filling(AppendAt(s.pages, s.current, x), s.current));
        FlattenAppendAt(s.pages, s.current, x);
      } else if s.current + 1 < |s.pages| {
        assert FillStep(s, perPage, x) == Ok(Filling(AppendAt(s.pages, s.current + 1, x), s.current + 1));
        FlattenAppendAt(s.pages, s.current + 1, x);
      }
    }
  }

  lemma {:induction false} FillConserves(pages: seq<seq<int>>, perPage: int, xs: seq<int>)
    ensures Fill(pages, perPage, xs).Ok? ==>
      multiset(Flatten(Fill(pages, perPage, xs).value.pages)) == multiset(Flatten(pages)) + multiset(xs)
    decreases |xs|
  {
    if |xs| > 0 {
      var ys := xs[..|xs| - 1];
      var x := xs[|xs| - 1];
      assert xs == ys + [x];
      FillConserves(pages, perPage, ys);
      var r := Fill(pages, perPage, ys);
      if r.Ok? {
        FillStepConserves(r.value, perPage, x);
        assert Fill(pages, perPage, xs) == FillStep(r.value, perPage, x);
      }
    }
  }

  lemma {:induction false} DealConserves(pages: seq<seq<int>>, numpages: int, xs: seq<int>)
    ensures Deal(pages, numpages, xs).Ok? ==>
      multiset(Flatten(Deal(pages, numpages, xs).value.pages)) == multiset(Flatten(pages)) + multiset(xs)
    decreases |xs|
  {
    if |xs| > 0 {
      var ys := xs[..|xs| - 1];
      assert xs == ys + [xs[|xs| - 1]];
      DealConserves(pages, numpages, ys);
      var r := Deal(pages, numpages, ys);
      if r.Ok? && r.value.current < |r.value.pages| {
        FlattenAppendAt(r.value.pages, r.value.current, xs[|xs| - 1]);
      }
    }
  }

  // ---------------------------------------------------------------------
  // Properties of generate_numbers

  /** The page count is the one `set_margins` computes for these tickets. */
  ghost predicate Sized(numpages: int, perPage: int, numtickets: int) {
    0 < perPage && numpages == CeilDiv(numtickets, perPage)
  }

  /** Filling a sized page list in order leaves exactly the blocks of the
      input, for any input as long as the ticket count. */
  lemma SizedFill(numpages: int, perPage: int, numtickets: int, xs: seq<int>)
    requires Sized(numpages, perPage, numtickets)
    requires |xs| == if numtickets < 0 then 0 else numtickets
    ensures Fill(Empties(numpages), perPage, xs) == Ok(ChunkState(xs, perPage, numpages))
    ensures ChunkState(xs, perPage, numpages).pages == Chunks(xs, perPage)
  {
    CeilDivPositive(numtickets, perPage);
    var c := Chunks(xs, perPage);
    if numtickets > 0 {
      FillIsChunks(xs, perPage, numpages);
      ChunksCount(xs, perPage);
      assert |c| == numpages;
      assert Empties<int>(numpages - |c|) == [];
      assert c + Empties<int>(numpages - |c|) == c;
    } else {
      assert Empties<int>(numpages) == [];
      assert xs == [];
      assert c == [];
      assert c + Empties<int>(numpages) == [];
      assert ChunkState(xs, perPage, numpages) == Filling([], 0);
      assert Fill(Empties(numpages), perPage, xs) == Ok(Filling([], 0));
    }
  }

  /** Sequential order: the pages are the consecutive blocks of the number
      range, perPage numbers each, the last one possibly short. */
  lemma SequentialPages(numpages: int, perPage: int, numtickets: int, numoffset: int, shuffled: seq<int>)
    requires Sized(numpages, perPage, numtickets)
    ensures NumberPages(numpages, perPage, numtickets, numoffset, SEQUENTIALORDER, false, shuffled)
      == Ok(Chunks(Range(numoffset, numtickets), perPage))
  {
    var xs := Range(numoffset, numtickets);
    SizedFill(numpages, perPage, numtickets, xs);
    assert Numbered(numpages, perPage, numtickets, numoffset, SEQUENTIALORDER, shuffled)
      == PagesOf(Fill(Empties(numpages), perPage, xs));
  }

  /** Sequential order puts number numoffset + k on page k div perPage, at
      position k mod perPage; so within a page the numbers run consecutively. */
  lemma SequentialPlace(numtickets: int, numoffset: int, perPage: int, k: int)
    requires 0 < perPage && 0 <= k < numtickets
    ensures var pages := Chunks(Range(numoffset, numtickets), perPage);
      && k / perPage < |pages|
      && k % perPage < |pages[k / perPage]|
      && pages[k / perPage][k % perPage] == numoffset + k
  {
    ChunksPlace(Range(numoffset, numtickets), perPage, k);
  }

  /** Random order: the shuffled list is consumed from its end, in blocks. */
  lemma RandomPages(numpages: int, perPage: int, numtickets: int, numoffset: int, shuffled: seq<int>)
    requires Sized(numpages, perPage, numtickets)
    requires multiset(shuffled) == multiset(Range(numoffset, numtickets))
    ensures NumberPages(numpages, perPage, numtickets, numoffset, RANDOMORDER, false, shuffled)
      == Ok(Chunks(Reverse(shuffled), perPage))
  {
    var xs := Reverse(shuffled);
    assert |shuffled| == |multiset(shuffled)| == |Range(numoffset, numtickets)|;
    SizedFill(numpages, perPage, numtickets, xs);
    assert Numbered(numpages, perPage, numtickets, numoffset, RANDOMORDER, shuffled)
      == PagesOf(Fill(Empties(numpages), perPage, xs));
  }

  /** Stack order: the pages are the round-robin strides of the number range,
      and no page holds more than perPage numbers. */
  lemma StackPages(numpages: int, perPage: int, numtickets: int, numoffset: int, shuffled: seq<int>)
    requires Sized(numpages, perPage, numtickets) && 0 < numtickets
    ensures 0 < numpages
    ensures NumberPages(numpages, perPage, numtickets, numoffset, STACKORDER, false, shuffled)
      == Ok(Dealt(Range(numoffset, numtickets), numpages))
    ensures forall p :: 0 <= p < numpages ==> |Dealt(Range(numoffset, numtickets), numpages)[p]| <= perPage
  {
    var xs := Range(numoffset, numtickets);
    CeilDivPositive(numtickets, perPage);
    DealIsDealt(xs, numpages);
    assert Numbered(numpages, perPage, numtickets, numoffset, STACKORDER, shuffled)
      == PagesOf(Deal(Empties(numpages), numpages, xs));
    forall p | 0 <= p < numpages
      ensures |Dealt(xs, numpages)[p]| <= perPage
    {
      DealtCapacity(xs, numpages, p);
      CeilDivWithinPage(numtickets, perPage, numpages);
    }
  }

  /** Spreading the tickets round-robin over the sized page count never puts
      more than perPage on one page. */
  lemma CeilDivWithinPage(numtickets: int, perPage: int, numpages: int)
    requires 0 < numtickets && Sized(numpages, perPage, numtickets)
    ensures 0 < numpages && CeilDiv(numtickets, numpages) <= perPage
  {
    CeilDivPositive(numtickets, perPage);
    CeilDivBounds(numtickets, perPage);
    CeilDivPositive(numtickets, numpages);
    var q := (numtickets + numpages - 1) / numpages;
    if q > perPage {
      DivBelow(numtickets + numpages - 1, numpages);
      MulMono(perPage + 1, q, numpages);
    }
  }

  /** With no tickets to number, stack order produces no pages. */
  lemma StackPagesEmpty(numpages: int, perPage: int, numtickets: int, numoffset: int, shuffled: seq<int>)
    requires Sized(numpages, perPage, numtickets) && numtickets <= 0
    ensures NumberPages(numpages, perPage, numtickets, numoffset, STACKORDER, false, shuffled) == Ok([])
  {
    CeilDivPositive(numtickets, perPage);
    assert Empties<int>(numpages) == [];
  }

  /** Stack order places ticket k at page k mod numpages, position k div numpages. */
  lemma StackPlace(numpages: int, numtickets: int, numoffset: int, k: int)
    requires 0 < numpages && 0 <= k < numtickets
    ensures k / numpages < |Dealt(Range(numoffset, numtickets), numpages)[k % numpages]|
    ensures Dealt(Range(numoffset, numtickets), numpages)[k % numpages][k / numpages] == numoffset + k
  {
    DealtPlace(Range(numoffset, numtickets), numpages, k);
  }

  /** Each number of xs is on exactly one page, and no page holds more than
      perPage numbers. */
  ghost predicate Distributes(pages: seq<seq<int>>, perPage: int, xs: seq<int>) {
    && multiset(Flatten(pages)) == multiset(xs)
    && forall p :: 0 <= p < |pages| ==> |pages[p]| <= perPage
  }

  /** Under every recognised order, a sized page list receives each number of
      the range exactly once, in exactly numpages pages, each holding at most
      perPage numbers. */
  lemma NumbersArePermutation(
    numpages: int, perPage: int, numtickets: int, numoffset: int,
    order: int, invert: bool, shuffled: seq<int>)
    requires Sized(numpages, perPage, numtickets)
    requires order in {STACKORDER, SEQUENTIALORDER, RANDOMORDER}
    requires order == RANDOMORDER ==> multiset(shuffled) == multiset(Range(numoffset, numtickets))
    ensures var r := NumberPages(numpages, perPage, numtickets, numoffset, order, invert, shuffled);
      && r.Ok?
      && multiset(Flatten(r.value)) == multiset(Range(numoffset, numtickets))
      && (forall p :: 0 <= p < |r.value| ==> |r.value[p]| <= perPage)
  {
    if order == SEQUENTIALORDER {
      SequentialDistributes(numpages, perPage, numtickets, numoffset, shuffled);
    } else if order == RANDOMORDER {
      RandomDistributes(numpages, perPage, numtickets, numoffset, shuffled);
    } else {
      StackDistributes(numpages, perPage, numtickets, numoffset, shuffled);
    }
    if invert {
      InvertDistributes(numpages, perPage, numtickets, numoffset, order, shuffled);
    }
  }

  lemma SequentialDistributes(numpages: int, perPage: int, numtickets: int, numoffset: int, shuffled: seq<int>)
    requires Sized(numpages, perPage, numtickets)
    ensures var r := NumberPages(numpages, perPage, numtickets, numoffset, SEQUENTIALORDER, false, shuffled);
      r.Ok? && Distributes(r.value, perPage, Range(numoffset, numtickets))
  {
    SequentialPages(numpages, perPage, numtickets, numoffset, shuffled);
    ChunksFlatten(Range(numoffset, numtickets), perPage);
  }

  lemma RandomDistributes(numpages: int, perPage: int, numtickets: int, numoffset: int, shuffled: seq<int>)
    requires Sized(numpages, perPage, numtickets)
    requires multiset(shuffled) == multiset(Range(numoffset, numtickets))
    ensures var r := NumberPages(numpages, perPage, numtickets, numoffset, RANDOMORDER, false, shuffled);
      r.Ok? && Distributes(r.value, perPage, Range(numoffset, numtickets))
  {
    RandomPages(numpages, perPage, numtickets, numoffset, shuffled);
    ChunksFlatten(Reverse(shuffled), perPage);
  }

  lemma StackDistributes(numpages: int, perPage: int, numtickets: int, numoffset: int, shuffled: seq<int>)
    requires Sized(numpages, perPage, numtickets)
    ensures var r := NumberPages(numpages, perPage, numtickets, numoffset, STACKORDER, false, shuffled);
      r.Ok? && Distributes(r.value, perPage, Range(numoffset, numtickets))
  {
    var xs := Range(numoffset, numtickets);
    if numtickets > 0 {
      StackPages(numpages, perPage, numtickets, numoffset, shuffled);
      DealConserves(Empties(numpages), numpages, xs);
      FlattenEmpties<int>(numpages);
    } else {
      StackPagesEmpty(numpages, perPage, numtickets, numoffset, shuffled);
      assert xs == [];
    }
  }

  /** Reversing the page order keeps the distribution. */
  lemma InvertDistributes(
    numpages: int, perPage: int, numtickets: int, numoffset: int, order: int, shuffled: seq<int>)
    requires var r := NumberPages(numpages, perPage, numtickets, numoffset, order, false, shuffled);
      r.Ok? && Distributes(r.value, perPage, Range(numoffset, numtickets))
    ensures var r := NumberPages(numpages, perPage, numtickets, numoffset, order, true, shuffled);
      r.Ok? && Distributes(r.value, perPage, Range(numoffset, numtickets))
  {
    var plain := NumberPages(numpages, perPage, numtickets, numoffset, order, false, shuffled).value;
    InvertReversesPages(numpages, perPage, numtickets, numoffset, order, shuffled);
    FlattenReverse(plain);
    assert NumberPages(numpages, perPage, numtickets, numoffset, order, true, shuffled) == Ok(Reverse(plain));
  }

  /** Inverting reverses the page order and leaves each page as it was. */
  lemma InvertReversesPages(
    numpages: int, perPage: int, numtickets: int, numoffset: int, order: int, shuffled: seq<int>)
    ensures var plain := NumberPages(numpages, perPage, numtickets, numoffset, order, false, shuffled);
      var inverted := NumberPages(numpages, perPage, numtickets, numoffset, order, true, shuffled);
      && plain.Ok? == inverted.Ok?
      && (plain.Ok? ==>
            && |inverted.value| == |plain.value|
            && forall i :: 0 <= i < |plain.value| ==>
                 inverted.value[i] == plain.value[|plain.value| - 1 - i])
  {
  }

  /** With a negative count of tickets per page and tickets to number, the
      page count `ceil` gives is not positive, so both the sequential and the
      stack loop index a page list that is empty and raise IndexError. */
  lemma NegativePerPageRaises(numpages: int, perPage: int, numtickets: int, numoffset: int, shuffled: seq<int>)
    requires perPage < 0 && 0 < numtickets && numpages == CeilDiv(numtickets, perPage)
    ensures numpages <= 0
    ensures NumberPages(numpages, perPage, numtickets, numoffset, SEQUENTIALORDER, false, shuffled)
      == Err(IndexError)
    ensures NumberPages(numpages, perPage, numtickets, numoffset, STACKORDER, false, shuffled)
      == Err(IndexError)
  {
    var xs := Range(numoffset, numtickets);
    assert numpages <= 0 by {
      if numpages > 0 {
        MulMono(1, numpages, -perPage);
      }
    }
    assert Empties<int>(numpages) == [];
    FillFailsOnEmpty(perPage, xs);
    DealFailsOnEmpty(numpages, xs);
  }

  lemma {:induction false} FillFailsOnEmpty(perPage: int, xs: seq<int>)
    requires 0 < |xs|
    ensures Fill([], perPage, xs) == Err(IndexError)
    decreases |xs|
  {
    if |xs| > 1 {
      FillFailsOnEmpty(perPage, xs[..|xs| - 1]);
    }
  }

  lemma {:induction false} DealFailsOnEmpty(numpages: int, xs: seq<int>)
    requires 0 < |xs|
    ensures Deal([], numpages, xs) == Err(IndexError)
    decreases |xs|
  {
    if |xs| > 1 {
      DealFailsOnEmpty(numpages, xs[..|xs| - 1]);
    }
  }
}

=== FILE: seqs.dfy ===
/** Sequence helpers shared by the numbering and driver models: flattening a
    list of pages, reversing a list, and appending to one page. */
module Seqs {

  function Flatten<T>(pages: seq<seq<T>>): seq<T>
  {
    if |pages| == 0 then [] else pages[0] + Flatten(pages[1..])
  }

  /** The list read backwards, as Python's `list.reverse()` leaves it. */
  function Reverse<T>(s: seq<T>): (r: seq<T>)
    ensures |r| == |s|
    ensures forall i :: 0 <= i < |s| ==> r[i] == s[|s| - 1 - i]
    ensures multiset(r) == multiset(s)
  {
    if |s| == 0 then [] else
      assert s == [s[0]] + s[1..];
      Reverse(s[1..]) + [s[0]]
  }

  /** `pages[i].append(x)`. */
  function AppendAt<T>(pages: seq<seq<T>>, i: nat, x: T): (r: seq<seq<T>>)
    requires i < |pages|
  {
    pages[i := pages[i] + [x]]
  }

  /** `m` empty pages, as `for i in range(0, m): append([])` builds them. */
  function Empties<T>(m: int): (r: seq<seq<T>>)
    ensures m <= 0 ==> |r| == 0
    ensures 0 <= m ==> |r| == m
    ensures forall i :: 0 <= i < |r| ==> r[i] == []
  {
    if m <= 0 then [] else [[]] + Empties(m - 1)
  }

  lemma EmptiesCons<T>(m: int)
    requires 0 < m
    ensures Empties<T>(m) == [[]] + Empties<T>(m - 1)
  {
  }

  lemma AppendAtConcat<T>(a: seq<seq<T>>, b: seq<seq<T>>, i: nat, x: T)
    requires i < |a| + |b|
    ensures i < |a| ==> AppendAt(a + b, i, x) == AppendAt(a, i, x) + b
    ensures |a| <= i ==> AppendAt(a + b, i, x) == a + AppendAt(b, i - |a|, x)
  {
    if i < |a| {
      assert AppendAt(a + b, i, x) == AppendAt(a, i, x) + b;
    } else {
      assert AppendAt(a + b, i, x) == a + AppendAt(b, i - |a|, x);
    }
  }

  /** Appending to the first empty page after `c` opens a new page. */
  lemma AppendToFirstEmpty<T>(c: seq<seq<T>>, m: int, x: T)
    requires |c| < m
    ensures AppendAt(c + Empties(m - |c|), |c|, x) == c + [[x]] + Empties(m - |c| - 1)
  {
    var rest := Empties<T>(m - |c|);
    EmptiesCons<T>(m - |c|);
    AppendAtConcat(c, rest, |c|, x);
    assert rest[0] + [x] == [x];
    assert AppendAt(rest, 0, x) == [[x]] + Empties(m - |c| - 1);
  }

  lemma FlattenConcat<T>(a: seq<seq<T>>, b: seq<seq<T>>)
    ensures Flatten(a + b) == Flatten(a) + Flatten(b)
  {
    if |a| == 0 {
      assert a + b == b;
    } else {
      assert (a + b)[1..] == a[1..] + b;
      FlattenConcat(a[1..], b);
    }
  }

  lemma {:induction false} FlattenEmpties<T>(m: int)
    ensures Flatten(Empties<T>(m)) == []
  {
    if m > 0 {
      FlattenEmpties<T>(m - 1);
    }
  }

  /** Appending one element to one page adds exactly that element to the
      multiset of all elements on all pages. */
  lemma {:induction false} FlattenAppendAt<T>(pages: seq<seq<T>>, i: nat, x: T)
    requires i < |pages|
    ensures multiset(Flatten(AppendAt(pages, i, x))) == multiset(Flatten(pages)) + multiset{x}
    ensures |Flatten(AppendAt(pages, i, x))| == |Flatten(pages)| + 1
  {
    var r := AppendAt(pages, i, x);
    if i == 0 {
      assert r[1..] == pages[1..];
    } else {
      assert r[1..] == AppendAt(pages[1..], i - 1, x);
      FlattenAppendAt(pages[1..], i - 1, x);
    }
  }

  /** Reversing the page order keeps every element. */
  lemma {:induction false} FlattenReverse<T>(pages: seq<seq<T>>)
    ensures multiset(Flatten(Reverse(pages))) == multiset(Flatten(pages))
    ensures |Flatten(Reverse(pages))| == |Flatten(pages)|
  {
    if |pages| > 0 {
      var rest := Reverse(pages[1..]);
      assert Reverse(pages) == rest + [pages[0]];
      FlattenConcat(rest, [pages[0]]);
      assert Flatten([pages[0]]) == pages[0] + Flatten<T>([]);
      FlattenReverse(pages[1..]);
    }
  }
}
